=== FILE: README.md ===
# SearchEngine of the momo server, modelled in Dafny

This project models the product search of the momo e-commerce server. That is
the `SearchEngine` class in `server/src/utils/search.ts`. It has four parts:

- the Levenshtein edit distance, used for fuzzy matching;
- the tokenizer that lower-cases text, drops punctuation, splits at whitespace
  and keeps the words longer than two characters;
- the relevance score of a product against the tokens of a query;
- `searchProducts`, which checks the search cache first and on a miss
  over-fetches a window of candidates from the catalog query `getProducts`,
  scores and filters them, sorts them by relevance, cuts the result to the
  limit and stores it in the cache.

Modules, one per concern:

- `Basics`: `Math.max`, `Math.min` and the prefix relation, shared by the
  other modules.
- `Text`: the JavaScript string semantics the source relies on. These are the
  `\w` and `\s` classes, ASCII `toLowerCase`, `trim`, `startsWith` and
  `includes`.
- `Levenshtein`: a recursive definition of the distance on prefixes. The
  two-dimensional table method of the source is proved equal to it.
- `Tokenizer`: `generateTokens`.
- `StableSort`: the stable descending sort of `Array.prototype.sort`, as used
  for scores and for `createdAt`.
- `Catalog`: products, search options and `getProducts` over a catalog held
  as a sequence.
- `Scorer`: the per-token and per-product scores.
- `Search`: ranking of a window and `searchProducts` with its cache.

Some facts the model makes visible about the code:

- The exact-match check runs on the whole product text before the per-token
  prefix (0.9) and substring (0.8) checks. Any query token contained in a
  product token is therefore already contained in the text and scores 1.0.
  The exception is text holding a character that tokenizing removes. That is
  punctuation, as in "re-do", or any non-ASCII character other than
  whitespace, as in "abécd", because `\w` without the `u` flag is ASCII only.
- The candidate window is `limit * 3`, or 60 when no limit is set. That is
  always three times the page size. It keeps the offset of the request.
- A failing cache read or write rejects the whole search.

## Model

| member | source | states |
|---|---|---|
| Levenshtein.LevenshteinDistance | server/src/utils/search.ts:16-43 | The table algorithm returns exactly the edit distance of the recursive definition. |
| Levenshtein.NewTable | server/src/utils/search.ts:17-25 | After initialisation, row 0 holds the distance of each prefix of `a` from the empty string and column 0 holds the row number. |
| Levenshtein.FillRow | server/src/utils/search.ts:28-40 | Filling row `i` makes every cell of rows 0..i the distance between the matching prefixes and leaves column 0 of later rows alone. |
| Levenshtein.InnerCell | server/src/utils/search.ts:30-37 | The source's cell rule gives the distance of the prefixes: the diagonal when the characters agree, else one more than the least of diagonal, left and above. |
| Levenshtein.DistanceBounds | server/src/utils/search.ts:16-43 | The distance to the empty string is the length; the distance is at least the length difference and at most the longer length. |
| Levenshtein.DistanceZeroIff | server/src/utils/search.ts:16-43 | The distance is zero exactly when the strings are equal. |
| Levenshtein.DistanceSymmetric | server/src/utils/search.ts:16-43 | The distance does not depend on argument order. |
| Levenshtein.DistanceAtLeastUnmatched | server/src/utils/search.ts:16-43 | Each character of `a` that does not occur in `b` costs at least one edit. |
| Levenshtein.DistanceAtMostMismatches | server/src/utils/search.ts:16-43 | For strings of equal length, the distance is at most the number of differing positions. |
| Levenshtein.KittenSitting | server/src/utils/search.ts:16-43 | "kitten" and "sitting" are three edits apart. |
| Text.Trim | server/src/utils/search.ts:57 | `trim` removes exactly the whitespace at both ends; the result is empty exactly when the string is all whitespace, and otherwise starts and ends with a non-space. |
| Text.TrimLower | server/src/utils/search.ts:62 | Lower-casing then trimming gives the same string as trimming then lower-casing. |
| Text.LowerChars | server/src/utils/search.ts:49 | Lower-casing maps each character on its own and changes only `A`..`Z`. |
| Text.ContainsIffOccurs | server/src/utils/search.ts:89 | `includes` holds exactly when the needle occurs at some position of the string. |
| Tokenizer.StripKeeps | server/src/utils/search.ts:50 | Removing special characters keeps only word characters and whitespace taken from the input, and leaves a string made only of those unchanged. |
| Tokenizer.StripAppend | server/src/utils/search.ts:50 | Stripping a concatenation strips each part, so every kept character stays, in order. |
| Tokenizer.SplitPieces | server/src/utils/search.ts:51 | Each piece of the split is free of whitespace and occurs in the input; the first piece starts the input. |
| Tokenizer.SplitRejoin | server/src/utils/search.ts:51 | There is one piece more than there are whitespace characters, and the pieces joined with those characters between them give the input back. |
| Tokenizer.KeepLongMembers | server/src/utils/search.ts:52 | The filter keeps only pieces longer than two characters and keeps every such piece. |
| Tokenizer.KeepLongAppend | server/src/utils/search.ts:52 | Filtering a concatenation filters each part, so order and repetitions are kept. |
| Tokenizer.Tokenize | server/src/utils/search.ts:46-53 | The empty text has no tokens; every token is longer than two characters and made of `a`..`z`, `0`..`9` and `_`. |
| Tokenizer.TokensOccur | server/src/utils/search.ts:48-52 | Every token occurs in the lower-cased, punctuation-free text. |
| Tokenizer.TokenizeJoin | server/src/utils/search.ts:46-53 | Tokenizing tokens joined by spaces gives the same tokens back. |
| Tokenizer.TokenizeIdempotent | server/src/utils/search.ts:46-53 | Tokenizing the space-joined tokens of a text gives those tokens again. |
| Tokenizer.TokenizeExamples | server/src/utils/search.ts:46-53 | "Cat's" gives ["cats"]; "aa bbb" gives ["bbb"]. |
| Scorer.ProductText | server/src/utils/search.ts:83 | The product text is the lower-cased name, description and sku with one space between neighbours; it has no upper-case letter. |
| Scorer.ProductTextLower | server/src/utils/search.ts:83-84 | Lower-casing the product text again, as tokenizing does, changes nothing. |
| Scorer.Fuzzy | server/src/utils/search.ts:105-108 | The fuzzy score lies in [0, 1]; it is 1 exactly for equal non-empty tokens, and above 0.7 exactly when ten times the distance is below three times the longer length. |
| Scorer.PartialScore | server/src/utils/search.ts:94-111 | A product token that starts with the search token scores 0.9. One that contains it only later scores 0.8. Otherwise the score is the fuzzy score when that is above 0.7, and 0 exactly when it is not. Every score is 0 or lies in (0.7, 1). |
| Scorer.PrefixScoresHigh | server/src/utils/search.ts:94-114 | A search token that starts some product token scores at least 0.9, above the 0.8 of a later occurrence. |
| Scorer.BestPartial | server/src/utils/search.ts:113 | The maximum is at least every product token's score and is 0 or attained by one of them; it is 0 with no product tokens. |
| Scorer.TokenScore | server/src/utils/search.ts:87-114 | A search token scores 1.0 exactly when the product text contains it; otherwise it scores 0 or lies in (0.7, 1); containment in some product token gives at least 0.8. |
| Scorer.Total | server/src/utils/search.ts:117 | The sum of token scores lies in [0, n] for n search tokens, and equals n exactly when every token occurs in the text. |
| Scorer.SumByPermutation | server/src/utils/search.ts:117 | The sum does not depend on the order of the scores. |
| Scorer.Relevance | server/src/utils/search.ts:117-118 | The relevance lies in [0, 1] and is 0 when there are no search tokens. |
| Scorer.RelevanceFull | server/src/utils/search.ts:117-118 | With search tokens present, the relevance is 1.0 exactly when the product text contains every one of them. |
| Scorer.RelevanceSingle | server/src/utils/search.ts:117-118 | For a single search token, the relevance is that token's score. |
| Scorer.RelevanceOrderFree | server/src/utils/search.ts:117-118 | Reordering the search tokens does not change the relevance. |
| Scorer.ProductScore | server/src/utils/search.ts:81-124 | A product's relevance lies in [0, 1]. |
| Scorer.ProductScoreSingle | server/src/utils/search.ts:81-118 | For a one-token query, a product's relevance is that token's score against the product text and its tokens. |
| Scorer.ContainmentNeedsStripping | server/src/utils/search.ts:89-103 | When tokenizing removes no character from the product text, a search token inside any product token scores 1.0, so the 0.9 and 0.8 branches are not reached. |
| Scorer.PunctuationScores | server/src/utils/search.ts:89-103 | Against the text "re-do" with the token "redo", "red" scores 0.9 by prefix and "edo" scores 0.8 by containment. |
| Scorer.AccentStrip | server/src/utils/search.ts:50 | Tokenizing removes the non-ASCII letter of "abécd", leaving "abcd". |
| Scorer.AccentScore | server/src/utils/search.ts:89-103 | Against the text "abécd" with the token "abcd", "bcd" scores 0.8 by containment. |
| Scorer.NameMatchScoresOne | server/src/utils/search.ts:83-91 | A query token found in the lower-cased product name scores 1.0. |
| Scorer.KittenSittingScore | server/src/utils/search.ts:105-110 | "kitten" against "sitting" scores 0: its fuzzy score of 4/7 is not above 0.7. |
| Search.ScoreAll | server/src/utils/search.ts:81-124 | Scoring keeps the window's products in order, each paired with its relevance. |
| Search.Relevant | server/src/utils/search.ts:128 | The filter keeps exactly the scored products whose relevance exceeds 0.5. |
| Search.Ranking | server/src/utils/search.ts:127-129 | The sorted results are a permutation of the relevant products, ordered by non-increasing relevance. |
| Search.Rank | server/src/utils/search.ts:127-130 | The results hold min(limit, number of relevant products) entries, ordered by non-increasing relevance, each a window product with its own score above 0.5. |
| Search.RankStable | server/src/utils/search.ts:129 | Results with equal relevance keep their window order: they form a prefix of that score's products in window order. |
| Search.RankTop | server/src/utils/search.ts:128-130 | A relevant product left out means the result is full and every result scores at least as high. |
| Search.RankNoTokens | server/src/utils/search.ts:78-130 | A query with no tokens ranks nothing. |
| Search.BlankIffSpaces | server/src/utils/search.ts:57 | A query is blank exactly when every character is whitespace. |
| Search.NormalizeQuery | server/src/utils/search.ts:62 | The normalized query is the query with whitespace trimmed from both ends, then lower-cased. So it has no upper-case letter and is no longer than the query. |
| Search.NormalizeKeepsContent | server/src/utils/search.ts:57-62 | A query that is not blank normalizes to a non-empty string. |
| Search.CacheKey | server/src/utils/search.ts:65 | The cache key is the normalized query, then a colon, then exactly the serialised options. |
| Search.WindowOptions | server/src/utils/search.ts:72-75 | The candidate fetch asks for three times the page size (60 when no limit is set) with the same offset and filters. |
| Search.Fresh | server/src/utils/search.ts:71-130 | A cache miss yields min(`limit` (20 when unset), the number of relevant candidates in the window) results, ordered by non-increasing relevance. Each result is a catalog product passing the filters with relevance above 0.5. |
| Search.FromWindow | server/src/utils/search.ts:72-75 | Candidates from the window are catalog products passing the request's own filters. |
| Search.SearchProducts | server/src/utils/search.ts:56-136 | A blank query returns the catalog page and leaves the cache alone. A hit returns the cached results without change. A miss stores and returns the fresh results. Cache failures reject the call. |
| Search.SearchTwice | server/src/utils/search.ts:64-69 | After a successful search, the same request is a cache hit and resolves to the same response. |
| Catalog.PageSize | server/src/utils/search.ts:150 | `take` is the limit when it is set and not zero, else 20. |
| Catalog.Matching | server/src/utils/search.ts:141-149 | The matches are exactly the catalog products in the category, when one is given, and within each price bound that is set and not zero. |
| Catalog.MatchingFilterOnly | server/src/utils/search.ts:141-149 | Only category and price decide which products match; limit and offset do not. |
| Catalog.Ordered | server/src/utils/search.ts:155-157 | The ordered matches are a permutation of the matches, newest first. |
| Catalog.GetProducts | server/src/utils/search.ts:139-159 | A page holds min(take, matches left after the skip) products, all matching catalog products, newest first. Its `i`-th entry is the ordered match at position `offset + i` (`offset` 0 when unset). |
| Catalog.FirstPageNewest | server/src/utils/search.ts:150-157 | A matching product missing from the first page means the page is full and everything on it is at least as new. |
| Catalog.FirstPageComplete | server/src/utils/search.ts:150-151 | When all matches fit on the first page, it holds every one of them. |
| Catalog.PagesConsecutive | server/src/utils/search.ts:150-151 | A page of `a` at `offset` followed by a page of `b` at `offset + a` is the page of `a + b` at `offset`. |
| StableSort.Sort | server/src/utils/search.ts:129 | Sorting gives a permutation ordered by non-increasing key in which elements of equal key keep their input order. |
| StableSort.SortCharacterized | server/src/utils/search.ts:129 | A sequence is a stable descending sort of the input exactly when it equals `Sort` of it. |
| StableSort.SortedUnique | server/src/utils/search.ts:129 | Two sorted sequences with the same elements of every key, in the same order, are equal. |

## Left out

- The database: `prisma.product.findMany` becomes a pure function over a catalog
  held as a sequence. `include: { category: true }` is not modelled, and neither
  are connection or query failures.
- The cache store: the Redis client is a map from key to results, passed in and
  returned. The expiry time, the key prefix of the store and the JSON round trip
  of cached values are not modelled. A store that fails is a `CacheHealth`
  parameter. A failing read or write rejects the whole search, because the code
  does not catch cache errors.
- Search.CacheKey: `JSON.stringify(options)` is a function parameter. The model
  states that the key ends with exactly its output, not how the options are
  serialised.
- Search.SearchTwice: the two calls run one after the other. Two concurrent
  calls that both miss the cache for the same key would both compute the
  results and both store them; interleaving of `await`s is not modelled.
- Scores are exact rationals (`real`), not IEEE doubles. The comparisons with
  0.7 and 0.5 are therefore exact; rounding could move a score sitting exactly
  on a boundary.
- Text.LowerChars: lower-casing is ASCII only. JavaScript's `toLowerCase` also
  maps non-ASCII letters.
- `limit` and `offset` are natural numbers. Negative, fractional or NaN values
  are not modelled.
- Catalog.Ordered: products with the same `createdAt` keep catalog order. The
  database gives no order for such ties.
- Search.Fresh: the window is `limit * 3`, or 60 when no limit is set, taken at
  the request's own offset. A limit below 20 gives a window smaller than 60.
  A non-zero offset skips candidates before the window, so they are never
  ranked.
- Search.Rank: ties in relevance keep window order, which is newest first,
  because the sort is stable. No other tie-break key is applied, as in the code.
- Tokenizer.Split: the text is cut at every whitespace character, not at runs
  of it. The extra empty pieces are removed by the length filter, so the tokens
  are the same.
- Tokenizer.IsTokenChar: `_` is a word character of `\w`, so it survives
  tokenizing and may appear in tokens.
- Search.SearchProducts: a blank query returns the raw `getProducts` page
  without relevance scores, as the code does.
- Scorer.TokenScore: a query token found in the product text scores 1.0 even
  when it is only a prefix of a product word. So "earbud" against "wireless
  earbuds" scores 1.0, not 0.9.
- Strings are sequences of Unicode scalar values, not JavaScript's UTF-16 code
  units. Lengths of text holding characters outside the Basic Multilingual Plane
  differ, for example in `ProductText`. Tokens are ASCII, so token lengths and
  scores are the same.
- The exported default instance and the `SearchOptions` interface need nothing
  beyond the datatypes above.

=== FILE: basics.dfy ===
/** Small definitions shared by the other modules: the larger and smaller of
    two numbers, and the prefix relation on sequences. */
module Basics {

  /** `Math.max` of two integers. */
  function Max(x: int, y: int): (m: int) {
    if x >= y then x else y
  }

  /** `Math.max` of two scores. */
  function MaxReal(x: real, y: real): (m: real) {
    if x >= y then x else y
  }

  /** `Math.min` of two integers. */
  function Min(x: int, y: int): (m: int) {
    if x <= y then x else y
  }

  /** `p` is a prefix of `s`; on strings, `s.startsWith(p)`. */
  predicate IsPrefix<T(==)>(p: seq<T>, s: seq<T>) {
    |p| <= |s| && s[..|p|] == p
  }
}

=== FILE: catalog.dfy ===
/** The product records the search engine works on, the search options, and
    `SearchEngine.getProducts`: the database query that filters the catalog by
    category and price, orders it newest first and returns one page of it. */
module Catalog {
  import opened Basics
  import opened StableSort

  datatype Option<T> = None | Some(value: T)

  /** The fields of a product record that search reads; `createdAt` is the
      creation time as a number of clock ticks. */
  datatype Product = Product(
    id: string,
    name: string,
    description: string,
    sku: string,
    price: real,
    categoryId: string,
    createdAt: int)

  /** `SearchOptions`: every field is optional. */
  datatype SearchOptions = SearchOptions(
    limit: Option<nat>,
    offset: Option<nat>,
    categoryId: Option<string>,
    minPrice: Option<real>,
    maxPrice: Option<real>)

  /** An option field that is present and not JavaScript-falsy (`0` or `""`). */
  predicate IsSetNat(x: Option<nat>) { x.Some? && x.value != 0 }
  predicate IsSetReal(x: Option<real>) { x.Some? && x.value != 0.0 }
  predicate IsSetString(x: Option<string>) { x.Some? && x.value != [] }

  /** `options.limit || 20`: a missing or zero limit means twenty. */
  function PageSize(o: SearchOptions): (n: nat)
    ensures n >= 1
    ensures IsSetNat(o.limit) ==> n == o.limit.value
    ensures !IsSetNat(o.limit) ==> n == 20
  {
    if IsSetNat(o.limit) then o.limit.value else 20
  }

  /** `options.offset || 0`. */
  function Offset(o: SearchOptions): (n: nat)
    ensures o.offset.Some? ==> n == o.offset.value
    ensures o.offset.None? ==> n == 0
  {
    if o.offset.Some? then o.offset.value else 0
  }

  /** The `where` clause: a category filter when `categoryId` is set, and a
      price range whose bounds each apply only when set; a bound of zero
      counts as absent. */
  predicate Matches(p: Product, o: SearchOptions) {
    && (IsSetString(o.categoryId) ==> p.categoryId == o.categoryId.value)
    && (IsSetReal(o.minPrice) ==> p.price >= o.minPrice.value)
    && (IsSetReal(o.maxPrice) ==> p.price <= o.maxPrice.value)
  }

  /** The products of `catalog` that satisfy the `where` clause, in catalog order. */
  function Matching(catalog: seq<Product>, o: SearchOptions): (r: seq<Product>)
    ensures |r| <= |catalog|
    ensures forall p :: p in r <==> p in catalog && Matches(p, o)
  {
    if catalog == [] then []
    else (if Matches(catalog[0], o) then [catalog[0]] else []) + Matching(catalog[1..], o)
  }

  /** `orderBy: { createdAt: 'desc' }` orders by this key. */
  function Recency(p: Product): (key: real) {
    p.createdAt as real
  }

  /** The matching products, newest first; products created at the same time
      keep their catalog order. */
  function Ordered(catalog: seq<Product>, o: SearchOptions): (r: seq<Product>)
    ensures |r| == |Matching(catalog, o)|
    ensures multiset(r) == multiset(Matching(catalog, o))
    ensures SortedDesc(r, Recency)
    ensures forall p :: p in r ==> p in catalog && Matches(p, o)
  {
    var r := Sort(Matching(catalog, o), Recency);
    assert forall p :: p in r ==> p in multiset(Matching(catalog, o));
    r
  }

  /** Only the filter fields of the options decide which products match. */
  lemma {:induction false} MatchingFilterOnly(catalog: seq<Product>, o: SearchOptions, o': SearchOptions)
    requires o.categoryId == o'.categoryId && o.minPrice == o'.minPrice && o.maxPrice == o'.maxPrice
    ensures Matching(catalog, o) == Matching(catalog, o')
    decreases |catalog|
  {
    if catalog != [] {
      MatchingFilterOnly(catalog[1..], o, o');
    }
  }

  /** `getProducts`: skip `offset` of the ordered matches and take `limit || 20`.
      The page holds only matching catalog products, newest first, is as long
      as the page size allows, and its `i`-th entry is match `offset + i`. */
  function GetProducts(catalog: seq<Product>, o: SearchOptions): (r: seq<Product>)
    ensures var total := |Matching(catalog, o)|;
      |r| == Min(PageSize(o), total - Min(Offset(o), total))
    ensures forall p :: p in r ==> p in catalog && Matches(p, o)
    ensures SortedDesc(r, Recency)
    ensures forall i :: 0 <= i < |r| ==> r[i] == Ordered(catalog, o)[Offset(o) + i]
  {
    var ordered := Ordered(catalog, o);
    var n := |ordered|;
    var lo, hi := Min(Offset(o), n), Min(Offset(o) + PageSize(o), n);
    SliceSorted(ordered, lo, hi, Recency);
    WindowLength(n, Offset(o), PageSize(o));
    ordered[lo..hi]
  }

  lemma WindowLength(n: nat, offset: nat, size: nat)
    ensures Min(offset, n) <= Min(offset + size, n)
    ensures Min(offset + size, n) - Min(offset, n) == Min(size, n - Min(offset, n))
  {
  }

  /** The first page holds the newest matches: a matching product it leaves
      out is no newer than anything on it, and it only leaves products out
      when it is full. */
  lemma FirstPageNewest(catalog: seq<Product>, o: SearchOptions, p: Product)
    requires Offset(o) == 0
    requires p in catalog && Matches(p, o)
    ensures var page := GetProducts(catalog, o);
      p !in page ==> |page| == PageSize(o) && forall i :: 0 <= i < |page| ==> page[i].createdAt >= p.createdAt
  {
    var ordered := Ordered(catalog, o);
    var page := GetProducts(catalog, o);
    var n := Min(PageSize(o), |ordered|);
    assert page == ordered[..n];
    assert p in multiset(ordered);
    if p !in page {
      SortedPrefixDominates(ordered, n, p, Recency);
      assert |page| == PageSize(o);
    }
  }

  /** When everything that matches fits on the first page, the page is all of it. */
  lemma FirstPageComplete(catalog: seq<Product>, o: SearchOptions)
    requires Offset(o) == 0 && |Matching(catalog, o)| <= PageSize(o)
    ensures multiset(GetProducts(catalog, o)) == multiset(Matching(catalog, o))
  {
    var ordered := Ordered(catalog, o);
    assert ordered[0..][..|ordered|] == ordered;
  }

  /** The options with a different offset and limit. */
  function WithPage(o: SearchOptions, offset: nat, limit: nat): (r: SearchOptions)
    ensures Offset(r) == offset && r.limit == Some(limit)
    ensures limit > 0 ==> PageSize(r) == limit
    ensures r.categoryId == o.categoryId && r.minPrice == o.minPrice && r.maxPrice == o.maxPrice
  {
    o.(offset := Some(offset), limit := Some(limit))
  }

  /** A page is the slice of the ordered matches from the offset to the
      offset plus the page size, cut off at the end. */
  lemma PageIsSlice(catalog: seq<Product>, o: SearchOptions)
    ensures var ordered := Ordered(catalog, o);
      var n := |ordered|;
      GetProducts(catalog, o) == ordered[Min(Offset(o), n)..Min(Offset(o) + PageSize(o), n)]
  {
  }

  /** Pages tile the ordered matches: a page of `a` at `offset` followed by a
      page of `b` right after it is the page of `a + b` at `offset`. */
  lemma PagesConsecutive(catalog: seq<Product>, o: SearchOptions, offset: nat, a: nat, b: nat)
    requires a > 0 && b > 0
    ensures GetProducts(catalog, WithPage(o, offset, a)) + GetProducts(catalog, WithPage(o, offset + a, b))
         == GetProducts(catalog, WithPage(o, offset, a + b))
  {
    var o1, o2, o3 := WithPage(o, offset, a), WithPage(o, offset + a, b), WithPage(o, offset, a + b);
    var ordered := Ordered(catalog, o);
    var n := |ordered|;
    var s1, s2, e := Min(offset, n), Min(offset + a, n), Min(offset + a + b, n);
    SamePage(catalog, o, o1, s1, s2);
    SamePage(catalog, o, o2, s2, e);
    SamePage(catalog, o, o3, s1, e);
    SlicesJoin(ordered, s1, s2, e);
  }

  /** The page for `o'` read off the order for `o`, when they filter alike. */
  lemma SamePage(catalog: seq<Product>, o: SearchOptions, o': SearchOptions, i: nat, j: nat)
    requires o.categoryId == o'.categoryId && o.minPrice == o'.minPrice && o.maxPrice == o'.maxPrice
    requires var n := |Ordered(catalog, o)|;
      i == Min(Offset(o'), n) && j == Min(Offset(o') + PageSize(o'), n)
    ensures GetProducts(catalog, o') == Ordered(catalog, o)[i..j]
  {
    SameOrder(catalog, o, o');
    PageIsSlice(catalog, o');
  }

  lemma SlicesJoin<T>(s: seq<T>, i: nat, j: nat, k: nat)
    requires i <= j <= k <= |s|
    ensures s[i..j] + s[j..k] == s[i..k]
  {
  }

  lemma SameOrder(catalog: seq<Product>, o: SearchOptions, o': SearchOptions)
    requires o.categoryId == o'.categoryId && o.minPrice == o'.minPrice && o.maxPrice == o'.maxPrice
    ensures Ordered(catalog, o) == Ordered(catalog, o')
  {
    MatchingFilterOnly(catalog, o, o');
  }
}

=== FILE: levenshtein.dfy ===
/** Levenshtein edit distance, as `SearchEngine.levenshteinDistance` computes it:
    a recursive definition that follows the table recurrence cell by cell, and
    the table-filling method proved equal to it. */
module Levenshtein {
  import opened Basics

  /** `Math.min` of three naturals. */
  function Min3(x: nat, y: nat, z: nat): (m: nat)
    ensures m <= x && m <= y && m <= z
    ensures m == x || m == y || m == z
  {
    if x <= y && x <= z then x else if y <= z then y else z
  }

  /** Edit distance between `a` and `b`. `Distance(a[..j], b[..i])` is the value
      cell (i, j) of the table holds: row 0 and column 0 count characters, equal
      last characters copy the diagonal, otherwise one more than the cheapest of
      substitution (diagonal), insertion (left) and deletion (above). */
  function Distance(a: string, b: string): (d: nat)
    decreases |a| + |b|
  {
    if |b| == 0 then |a|
    else if |a| == 0 then |b|
    else if b[|b| - 1] == a[|a| - 1] then Distance(a[..|a| - 1], b[..|b| - 1])
    else 1 + Min3(Distance(a[..|a| - 1], b[..|b| - 1]),
                  Distance(a[..|a| - 1], b),
                  Distance(a, b[..|b| - 1]))
  }

  /** The table method: a (|b|+1) x (|a|+1) matrix filled row by row. */
  method LevenshteinDistance(a: string, b: string) returns (d: nat)
    ensures d == Distance(a, b)
  {
    var matrix := NewTable(a, b);
    var i := 1;
    while i <= |b|
      invariant 1 <= i <= |b| + 1
      invariant forall r, c :: 0 <= r < i && 0 <= c <= |a| ==> matrix[r, c] == Distance(a[..c], b[..r])
      invariant forall r :: i <= r <= |b| ==> matrix[r, 0] == r
    {
      FillRow(matrix, a, b, i);
      i := i + 1;
    }
    assert a[..|a|] == a && b[..|b|] == b;
    d := matrix[|b|, |a|];
  }

  /** A fresh table with row 0 and column 0 initialised. */
  method NewTable(a: string, b: string) returns (matrix: array2<nat>)
    ensures fresh(matrix)
    ensures matrix.Length0 == |b| + 1 && matrix.Length1 == |a| + 1
    ensures forall c :: 0 <= c <= |a| ==> matrix[0, c] == Distance(a[..c], b[..0])
    ensures forall r :: 0 <= r <= |b| ==> matrix[r, 0] == r
  {
    matrix := new nat[|b| + 1, |a| + 1];
    var i := 0;
    while i <= |b|
      invariant 0 <= i <= |b| + 1
      invariant forall r :: 0 <= r < i ==> matrix[r, 0] == r
    {
      matrix[i, 0] := i;
      i := i + 1;
    }
    var j := 0;
    while j <= |a|
      invariant 0 <= j <= |a| + 1
      invariant forall c :: 0 <= c < j ==> matrix[0, c] == c
      invariant forall r :: 1 <= r <= |b| ==> matrix[r, 0] == r
    {
      matrix[0, j] := j;
      j := j + 1;
    }
    forall c | 0 <= c <= |a|
      ensures matrix[0, c] == Distance(a[..c], b[..0])
    {
      EdgeCells(a, b, c, 0);
    }
  }

  /** Fills row `i` from the row above it and its own first cell. */
  method FillRow(matrix: array2<nat>, a: string, b: string, i: nat)
    requires matrix.Length0 == |b| + 1 && matrix.Length1 == |a| + 1
    requires 1 <= i <= |b|
    requires forall r, c :: 0 <= r < i && 0 <= c <= |a| ==> matrix[r, c] == Distance(a[..c], b[..r])
    requires forall r :: i <= r <= |b| ==> matrix[r, 0] == r
    modifies matrix
    ensures forall r, c :: 0 <= r <= i && 0 <= c <= |a| ==> matrix[r, c] == Distance(a[..c], b[..r])
    ensures forall r :: i < r <= |b| ==> matrix[r, 0] == r
  {
    EdgeCells(a, b, 0, i);
    var j := 1;
    while j <= |a|
      invariant 1 <= j <= |a| + 1
      invariant forall r, c :: 0 <= r < i && 0 <= c <= |a| ==> matrix[r, c] == Distance(a[..c], b[..r])
      invariant forall c :: 0 <= c < j ==> matrix[i, c] == Distance(a[..c], b[..i])
      invariant forall r :: i < r <= |b| ==> matrix[r, 0] == r
    {
      var diagonal, left, above := matrix[i - 1, j - 1], matrix[i, j - 1], matrix[i - 1, j];
      InnerCell(a, b, i, j, diagonal, left, above);
      var cost := if b[i - 1] == a[j - 1] then diagonal else Min3(diagonal + 1, left + 1, above + 1);
      matrix[i, j] := cost;
      j := j + 1;
    }
  }

  /** Row 0 and column 0 of the table. */
  lemma EdgeCells(a: string, b: string, j: nat, i: nat)
    requires j <= |a| && i <= |b|
    ensures Distance(a[..j], b[..0]) == j
    ensures Distance(a[..0], b[..i]) == i
  {
  }

  /** The update rule of an inner cell, read off the definition: given the
      distances of the three neighbouring cells, the cell's own. */
  lemma InnerCell(a: string, b: string, i: nat, j: nat, diagonal: nat, left: nat, above: nat)
    requires 1 <= i <= |b| && 1 <= j <= |a|
    requires diagonal == Distance(a[..j - 1], b[..i - 1])
    requires left == Distance(a[..j - 1], b[..i])
    requires above == Distance(a[..j], b[..i - 1])
    ensures Distance(a[..j], b[..i])
      == if b[i - 1] == a[j - 1] then diagonal else Min3(diagonal + 1, left + 1, above + 1)
  {
    var aj, bi := a[..j], b[..i];
    assert aj[..j - 1] == a[..j - 1] && bi[..i - 1] == b[..i - 1];
  }

  /** Against the empty string the distance is the other length; in general it
      is at least the length difference and at most the longer length. */
  lemma {:induction false} DistanceBounds(a: string, b: string)
    ensures Distance(a, []) == |a| && Distance([], b) == |b|
    ensures |a| - |b| <= Distance(a, b) && |b| - |a| <= Distance(a, b)
    ensures Distance(a, b) <= Max(|a|, |b|)
    decreases |a| + |b|
  {
    if |a| > 0 && |b| > 0 {
      var a', b' := a[..|a| - 1], b[..|b| - 1];
      DistanceBounds(a', b');
      DistanceBounds(a', b);
      DistanceBounds(a, b');
    }
  }

  /** The distance is zero exactly for equal strings. */
  lemma {:induction false} DistanceZeroIff(a: string, b: string)
    ensures Distance(a, b) == 0 <==> a == b
    decreases |a| + |b|
  {
    if |a| > 0 && |b| > 0 {
      var a', b' := a[..|a| - 1], b[..|b| - 1];
      DistanceZeroIff(a', b');
      assert a == a' + [a[|a| - 1]] && b == b' + [b[|b| - 1]];
    }
  }

  /** Swapping the strings swaps insertions and deletions and leaves the distance unchanged. */
  lemma {:induction false} DistanceSymmetric(a: string, b: string)
    ensures Distance(a, b) == Distance(b, a)
    decreases |a| + |b|
  {
    if |a| > 0 && |b| > 0 {
      var a', b' := a[..|a| - 1], b[..|b| - 1];
      DistanceSymmetric(a', b');
      DistanceSymmetric(a', b);
      DistanceSymmetric(a, b');
    }
  }

  /** Number of positions at which two equal-length strings differ. */
  function Mismatches(a: string, b: string): (n: nat)
    requires |a| == |b|
    ensures n <= |a|
  {
    if |a| == 0 then 0
    else (if a[0] == b[0] then 0 else 1) + Mismatches(a[1..], b[1..])
  }

  lemma {:induction false} MismatchesLast(a: string, b: string)
    requires |a| == |b| > 0
    ensures Mismatches(a, b)
      == Mismatches(a[..|a| - 1], b[..|b| - 1]) + (if a[|a| - 1] == b[|b| - 1] then 0 else 1)
    decreases |a|
  {
    if |a| > 1 {
      MismatchesLast(a[1..], b[1..]);
      assert a[1..][..|a| - 2] == a[..|a| - 1][1..];
      assert b[1..][..|b| - 2] == b[..|b| - 1][1..];
    }
  }

  /** Substituting every mismatched position is one way to edit `a` into `b`. */
  lemma {:induction false} DistanceAtMostMismatches(a: string, b: string)
    requires |a| == |b|
    ensures Distance(a, b) <= Mismatches(a, b)
    decreases |a|
  {
    if |a| > 0 {
      MismatchesLast(a, b);
      DistanceAtMostMismatches(a[..|a| - 1], b[..|b| - 1]);
    }
  }

  /** Number of positions of `a` whose character occurs nowhere in `b`. */
  function Unmatched(a: string, b: string): (n: nat)
    ensures n <= |a|
  {
    if |a| == 0 then 0
    else (if a[0] in b then 0 else 1) + Unmatched(a[1..], b)
  }

  lemma {:induction false} UnmatchedLast(a: string, b: string)
    requires |a| > 0
    ensures Unmatched(a, b) == Unmatched(a[..|a| - 1], b) + (if a[|a| - 1] in b then 0 else 1)
    decreases |a|
  {
    if |a| > 1 {
      UnmatchedLast(a[1..], b);
      assert a[1..][..|a| - 2] == a[..|a| - 1][1..];
    }
  }

  /** Dropping characters from `b` can only leave more of `a` unmatched. */
  lemma {:induction false} UnmatchedAntitone(a: string, b: string, b': string)
    requires forall c :: c in b' ==> c in b
    ensures Unmatched(a, b) <= Unmatched(a, b')
    decreases |a|
  {
    if |a| > 0 {
      UnmatchedAntitone(a[1..], b, b');
    }
  }

  /** Every character of `a` that `b` lacks costs at least one edit. */
  lemma {:induction false} DistanceAtLeastUnmatched(a: string, b: string)
    ensures Unmatched(a, b) <= Distance(a, b)
    decreases |a| + |b|
  {
    if |a| > 0 && |b| > 0 {
      var a', b' := a[..|a| - 1], b[..|b| - 1];
      UnmatchedLast(a, b);
      UnmatchedAntitone(a', b, b');
      UnmatchedAntitone(a, b, b');
      DistanceAtLeastUnmatched(a', b');
      DistanceAtLeastUnmatched(a', b);
      DistanceAtLeastUnmatched(a, b');
    }
  }

  /** The textbook example: three edits turn "kitten" into "sitting". */
  lemma KittenSitting()
    ensures Distance("kitten", "sitting") == 3
  {
    var d1 := Distance("kitte", "sittin");
    var d2 := Distance("kitte", "sitting");
    var d3 := Distance("kitten", "sittin");
    KittenSittingSteps();
    assert "kitten"[..5] == "kitte" && "sitting"[..6] == "sittin";
    assert Distance("kitten", "sitting") == 1 + Min3(d1, d2, d3);
  }

  /** The three neighbours of the last cell: the distances with the last
      character of "kitten", of "sitting", or of both dropped. */
  lemma KittenSittingSteps()
    ensures Distance("kitte", "sittin") >= 2
    ensures Distance("kitte", "sitting") >= 2
    ensures Distance("kitten", "sittin") == 2
  {
    SittingShortUpper();
    SittingShortLower();
    BothShortLower();
    KittenShortLower();
  }

  lemma SittingShortUpper()
    ensures Distance("kitten", "sittin") <= 2
  {
    assert Mismatches("kitten", "sittin") == 2;
    DistanceAtMostMismatches("kitten", "sittin");
  }

  lemma SittingShortLower()
    ensures Distance("kitten", "sittin") >= 2
  {
    assert Unmatched("kitten", "sittin") == 2;
    DistanceAtLeastUnmatched("kitten", "sittin");
  }

  lemma BothShortLower()
    ensures Distance("kitte", "sittin") >= 2
  {
    assert Unmatched("sittin", "kitte") == 2;
    DistanceAtLeastUnmatched("sittin", "kitte");
    DistanceSymmetric("kitte", "sittin");
  }

  lemma KittenShortLower()
    ensures Distance("kitte", "sitting") >= 2
  {
    assert Unmatched("sitting", "kitte") == 3;
    DistanceAtLeastUnmatched("sitting", "kitte");
    DistanceSymmetric("kitte", "sitting");
  }
}

=== FILE: scorer.dfy ===
/** The relevance score `searchProducts` gives one product: each query token
    scores 1.0 when it occurs in the product's lower-cased text, otherwise the
    best partial score against the product's own tokens; the relevance is the
    mean over the query tokens. */
module Scorer {
  import opened Basics
  import opened Text
  import opened Levenshtein
  import opened Tokenizer
  import opened Catalog

  /** `${name} ${description} ${sku}`, lower-cased. */
  function ProductText(p: Product): (text: string)
    ensures text == Lower(p.name) + " " + Lower(p.description) + " " + Lower(p.sku)
    ensures |text| == |p.name| + |p.description| + |p.sku| + 2
    ensures forall i :: 0 <= i < |text| ==> !IsUpper(text[i])
  {
    var text := Lower(p.name + " " + p.description + " " + p.sku);
    LowerChars(p.name + " " + p.description + " " + p.sku);
    LowerFields(p.name, p.description, p.sku);
    text
  }

  /** Lower-casing the joined fields lower-cases each field and keeps the spaces. */
  lemma LowerFields(a: string, b: string, c: string)
    ensures Lower(a + " " + b + " " + c) == Lower(a) + " " + Lower(b) + " " + Lower(c)
  {
    assert Lower(" ") == " " by {
      assert " "[1..] == [];
    }
    LowerAppend(a + " " + b + " ", c);
    LowerAppend(a + " " + b, " ");
    LowerAppend(a + " ", b);
    LowerAppend(a, " ");
  }

  /** Lower-casing twice changes nothing more. */
  lemma ProductTextLower(p: Product)
    ensures Lower(ProductText(p)) == ProductText(p)
  {
    LowerOfLower(ProductText(p));
  }

  /** Multiplying by a positive number keeps the order. */
  lemma ScaleOrder(x: real, y: real, m: real)
    requires m > 0.0
    ensures x < y <==> x * m < y * m
    ensures x == y <==> x * m == y * m
  {
    if x < y {
      assert (y - x) * m > 0.0;
    } else {
      assert (x - y) * m >= 0.0;
    }
  }

  /** `1 - d / m` for `0 <= d <= m` with `m > 0`: between 0 and 1, equal to 1
      exactly when `d` is 0, and above 0.7 exactly when `10 d < 3 m`. */
  lemma Ratio(d: nat, m: nat)
    requires 0 < m && d <= m
    ensures 0.0 <= 1.0 - d as real / m as real <= 1.0
    ensures 1.0 - d as real / m as real == 1.0 <==> d == 0
    ensures 1.0 - d as real / m as real > 0.7 <==> 10 * d < 3 * m
  {
    var x, mr := d as real / m as real, m as real;
    assert x * mr == d as real;
    ScaleOrder(x, 0.0, mr);
    assert 0.0 * mr == 0.0;
    assert 0.0 <= x;
    ScaleOrder(1.0, x, mr);
    assert 1.0 * mr == mr;
    assert x <= 1.0;
    RatioThreshold(d, m, x);
  }

  lemma RatioThreshold(d: nat, m: nat, x: real)
    requires 0 < m && x * m as real == d as real
    ensures x < 0.3 <==> 10 * d < 3 * m
  {
    var mr := m as real;
    ScaleOrder(x, 0.3, mr);
    assert 10 * d < 3 * m <==> d as real < 0.3 * mr;
  }

  /** `1 - distance / maxLength`. When both strings are empty JavaScript
      computes `NaN`, which fails every comparison; it is given 0 here, which
      fails the `> 0.7` test alike. */
  function Fuzzy(t: string, c: string): (r: real)
    ensures 0.0 <= r <= 1.0
    ensures r == 1.0 <==> t == c && t != []
    ensures r > 0.7 <==> 10 * Distance(t, c) < 3 * Max(|t|, |c|)
  {
    var maxLength := Max(|t|, |c|);
    DistanceBounds(t, c);
    DistanceZeroIff(t, c);
    if maxLength == 0 then 0.0
    else
      var d := Distance(t, c);
      Ratio(d, maxLength);
      1.0 - d as real / maxLength as real
  }

  /** The score of query token `t` against one product token `c`: 0.9 when `c`
      starts with `t`, 0.8 when `c` contains it elsewhere, the fuzzy score
      when it exceeds 0.7, and 0 otherwise. Never 1: an exact match is a
      prefix match. */
  function PartialScore(t: string, c: string): (r: real)
    ensures r == 0.0 || 0.7 < r < 1.0
    ensures Contains(c, t) ==> r >= 0.8
    ensures r == 0.0 <==> !Contains(c, t) && Fuzzy(t, c) <= 0.7
    ensures IsPrefix(t, c) ==> r == 0.9
    ensures !IsPrefix(t, c) && Contains(c, t) ==> r == 0.8
    ensures !Contains(c, t) && Fuzzy(t, c) > 0.7 ==> r == Fuzzy(t, c)
  {
    if IsPrefix(t, c) then
      ContainsPrefix(t, c);
      0.9
    else if Contains(c, t) then 0.8
    else
      var f := Fuzzy(t, c);
      ContainsPrefix(c, c);
      if f > 0.7 then f else 0.0
  }

  /** `Math.max(0, ...partialScores)`: the best partial score of `t` against
      the product tokens, or 0 when there are none. */
  function BestPartial(t: string, tokens: seq<string>): (r: real)
    ensures r == 0.0 || 0.7 < r < 1.0
    ensures forall i :: 0 <= i < |tokens| ==> PartialScore(t, tokens[i]) <= r
    ensures r == 0.0 || exists i :: 0 <= i < |tokens| && r == PartialScore(t, tokens[i])
    ensures tokens == [] ==> r == 0.0
  {
    if tokens == [] then 0.0
    else
      var rest := BestPartial(t, tokens[1..]);
      var r := MaxReal(PartialScore(t, tokens[0]), rest);
      assert forall i :: 1 <= i < |tokens| ==> tokens[i] == tokens[1..][i - 1];
      MaxAttained(t, tokens, rest);
      r
  }

  lemma MaxAttained(t: string, tokens: seq<string>, rest: real)
    requires tokens != []
    requires rest == 0.0 || exists i :: 0 <= i < |tokens[1..]| && rest == PartialScore(t, tokens[1..][i])
    ensures var r := MaxReal(PartialScore(t, tokens[0]), rest);
      r == 0.0 || exists i :: 0 <= i < |tokens| && r == PartialScore(t, tokens[i])
  {
    var r := MaxReal(PartialScore(t, tokens[0]), rest);
    if r != 0.0 && r != PartialScore(t, tokens[0]) {
      var i :| 0 <= i < |tokens[1..]| && rest == PartialScore(t, tokens[1..][i]);
      assert r == PartialScore(t, tokens[i + 1]);
    }
  }

  /** The score of query token `t` for a product with lower-cased text `text`
      and tokens `tokens`: exactly 1.0 when `t` occurs in the text, whatever
      the tokens are; otherwise the best partial score, which is 0 or lies in
      (0.7, 1) and is at least 0.8 when some token contains `t`. */
  function TokenScore(text: string, tokens: seq<string>, t: string): (r: real)
    ensures r == 1.0 <==> Contains(text, t)
    ensures r == 0.0 || 0.7 < r <= 1.0
    ensures (exists i :: 0 <= i < |tokens| && Contains(tokens[i], t)) ==> r >= 0.8
    ensures tokens == [] ==> (r == 1.0 || r == 0.0)
  {
    if Contains(text, t) then 1.0 else BestPartial(t, tokens)
  }

  /** A query token that starts some product token scores at least 0.9, so
      the prefix tier always outranks a token that only contains it later. */
  lemma PrefixScoresHigh(text: string, tokens: seq<string>, t: string, i: nat)
    requires i < |tokens| && IsPrefix(t, tokens[i])
    ensures TokenScore(text, tokens, t) >= 0.9
  {
    assert PartialScore(t, tokens[i]) == 0.9;
  }

  /** The sum of `f` over `q`, from left to right. */
  function SumBy<T>(f: T -> real, q: seq<T>): (sum: real)
  {
    if q == [] then 0.0 else f(q[0]) + SumBy(f, q[1..])
  }

  /** A sum of terms in [0, 1] lies between 0 and the number of terms, and
      reaches that number exactly when every term is 1. */
  lemma {:induction false} SumByBounds<T>(f: T -> real, q: seq<T>)
    requires forall x :: 0.0 <= f(x) <= 1.0
    ensures 0.0 <= SumBy(f, q) <= |q| as real
    ensures SumBy(f, q) == |q| as real <==> forall i :: 0 <= i < |q| ==> f(q[i]) == 1.0
    decreases |q|
  {
    if q != [] {
      SumByBounds(f, q[1..]);
      assert forall i :: 1 <= i < |q| ==> q[i] == q[1..][i - 1];
    }
  }

  /** The sum of a concatenation is the sum of the sums. */
  lemma {:induction false} SumByAppend<T>(f: T -> real, a: seq<T>, b: seq<T>)
    ensures SumBy(f, a + b) == SumBy(f, a) + SumBy(f, b)
    decreases |a|
  {
    if a == [] {
      assert a + b == b;
    } else {
      SumByAppend(f, a[1..], b);
      assert (a + b)[0] == a[0] && (a + b)[1..] == a[1..] + b;
    }
  }

  /** Taking out one term takes out its value. */
  lemma SumByRemove<T>(f: T -> real, q: seq<T>, i: nat)
    requires i < |q|
    ensures SumBy(f, q) == f(q[i]) + SumBy(f, q[..i] + q[i + 1..])
  {
    var front, back := q[..i], q[i + 1..];
    assert q == front + q[i..];
    assert q[i..] == [q[i]] + back;
    SumByAppend(f, front, q[i..]);
    SumByCons(f, q[i], back);
    SumByAppend(f, front, back);
  }

  lemma SumByCons<T>(f: T -> real, x: T, q: seq<T>)
    ensures SumBy(f, [x] + q) == f(x) + SumBy(f, q)
  {
    assert ([x] + q)[1..] == q;
  }

  /** The sum does not depend on the order of the terms. */
  lemma {:induction false} SumByPermutation<T>(f: T -> real, q: seq<T>, other: seq<T>)
    requires multiset(q) == multiset(other)
    ensures SumBy(f, q) == SumBy(f, other)
    decreases |q|
  {
    if q != [] {
      assert q[0] in multiset(other);
      var j :| 0 <= j < |other| && other[j] == q[0];
      var rest := other[..j] + other[j + 1..];
      assert other == other[..j] + [other[j]] + other[j + 1..];
      assert q == [q[0]] + q[1..];
      assert multiset(other) == multiset(rest) + multiset{q[0]};
      assert multiset(q) == multiset(q[1..]) + multiset{q[0]};
      MultisetCancel(multiset(q[1..]), multiset(rest), q[0]);
      SumByPermutation(f, q[1..], rest);
      SumByRemove(f, other, j);
    } else {
      assert |other| == |multiset(other)|;
    }
  }

  lemma MultisetCancel<T>(a: multiset<T>, b: multiset<T>, x: T)
    requires a + multiset{x} == b + multiset{x}
    ensures a == b
  {
    assert a == (a + multiset{x}) - multiset{x};
    assert b == (b + multiset{x}) - multiset{x};
  }

  /** `tokenScores.reduce((sum, score) => sum + score, 0)`: at most one per
      query token, and exactly that when every query token occurs in the text. */
  function Total(text: string, tokens: seq<string>, query: seq<string>): (r: real)
    ensures 0.0 <= r <= |query| as real
    ensures r == |query| as real <==> forall i :: 0 <= i < |query| ==> Contains(text, query[i])
  {
    var f := t => TokenScore(text, tokens, t);
    SumByBounds(f, query);
    SumBy(f, query)
  }

  /** The relevance score: the sum of the token scores divided by
      `Math.max(1, tokenScores.length)`. It lies in [0, 1] and is 0 when the
      query has no tokens. */
  function Relevance(text: string, tokens: seq<string>, query: seq<string>): (r: real)
    ensures 0.0 <= r <= 1.0
    ensures query == [] ==> r == 0.0
  {
    var n := if |query| >= 1 then |query| else 1;
    var total := Total(text, tokens, query);
    QuotientBounds(total, n as real);
    total / n as real
  }

  lemma QuotientBounds(x: real, n: real)
    requires n >= 1.0 && 0.0 <= x <= n
    ensures 0.0 <= x / n <= 1.0
    ensures x == 0.0 ==> x / n == 0.0
  {
    ScaleOrder(x / n, 1.0, n);
    ScaleOrder(x / n, 0.0, n);
    assert (x / n) * n == x;
    assert 1.0 * n == n && 0.0 * n == 0.0;
  }

  /** The relevance of product `p` to the query tokens. */
  function ProductScore(p: Product, query: seq<string>): (r: real)
    ensures 0.0 <= r <= 1.0
  {
    var text := ProductText(p);
    Relevance(text, Tokenize(text), query)
  }

  /** With a single query token the relevance is that token's score. */
  lemma ProductScoreSingle(p: Product, t: string)
    ensures ProductScore(p, [t]) == TokenScore(ProductText(p), Tokenize(ProductText(p)), t)
  {
    var text := ProductText(p);
    RelevanceSingle(text, Tokenize(text), t);
  }

  lemma RelevanceSingle(text: string, tokens: seq<string>, t: string)
    ensures Relevance(text, tokens, [t]) == TokenScore(text, tokens, t)
  {
    var f := u => TokenScore(text, tokens, u);
    assert [t][1..] == [];
    assert SumBy(f, [t]) == f(t);
  }

  /** A relevance of exactly 1 means every query token occurs in the text. */
  lemma RelevanceFull(text: string, tokens: seq<string>, query: seq<string>)
    requires query != []
    ensures Relevance(text, tokens, query) == 1.0 <==> forall i :: 0 <= i < |query| ==> Contains(text, query[i])
  {
    var n := |query| as real;
    var total := Total(text, tokens, query);
    assert Relevance(text, tokens, query) == total / n;
    QuotientOne(total, n);
  }

  lemma QuotientOne(x: real, n: real)
    requires n > 0.0
    ensures x / n == 1.0 <==> x == n
  {
    ScaleOrder(x / n, 1.0, n);
    assert 1.0 * n == n;
  }

  /** Word order in the query does not matter: reordering the query tokens
      leaves every relevance score unchanged. */
  lemma RelevanceOrderFree(text: string, tokens: seq<string>, query: seq<string>, other: seq<string>)
    requires multiset(query) == multiset(other)
    ensures Relevance(text, tokens, query) == Relevance(text, tokens, other)
  {
    SumByPermutation(t => TokenScore(text, tokens, t), query, other);
    assert |query| == |multiset(query)| == |multiset(other)| == |other|;
  }

  /** Partial matching is reached only through a character that tokenizing
      removes (punctuation, or any non-ASCII character other than whitespace,
      since `\w` is ASCII only): when the product text has no such character,
      any query token that some product token contains occurs in the text and
      scores 1.0. */
  lemma ContainmentNeedsStripping(p: Product, t: string, k: nat)
    requires Strip(ProductText(p)) == ProductText(p)
    requires k < |Tokenize(ProductText(p))| && Contains(Tokenize(ProductText(p))[k], t)
    ensures TokenScore(ProductText(p), Tokenize(ProductText(p)), t) == 1.0
  {
    var text := ProductText(p);
    ProductTextLower(p);
    TokensOccur(text);
    ContainsTransitive(text, Tokenize(text)[k], t);
  }

  /** "kitten" against "sitting": neither contains the other and three edits
      in seven characters leave a fuzzy score of 4/7, under the 0.7 floor. */
  lemma KittenSittingScore()
    ensures PartialScore("kitten", "sitting") == 0.0
  {
    KittenSitting();
    assert !Contains("sitting", "kitten");
  }

  /** "re-do" holds neither "red" nor "edo", but its token "redo" starts with
      "red" and contains "edo": the hyphen that tokenizing removes makes the
      0.9 and 0.8 branches reachable. */
  lemma PunctuationScores()
    ensures TokenScore("re-do", ["redo"], "red") == 0.9
    ensures TokenScore("re-do", ["redo"], "edo") == 0.8
  {
    PrefixScore();
    InfixScore();
  }

  lemma PrefixScore()
    ensures TokenScore("re-do", ["redo"], "red") == 0.9
  {
    ReDoLacks("red");
    assert IsPrefix("red", "redo");
    assert ["redo"][1..] == [];
  }

  lemma InfixScore()
    ensures TokenScore("re-do", ["redo"], "edo") == 0.8
  {
    ReDoLacks("edo");
    assert !IsPrefix("edo", "redo");
    assert IsPrefix("edo", "redo"[1..]);
    assert ["redo"][1..] == [];
  }

  /** Every stretch of three or more characters of "re-do" covers the hyphen. */
  lemma ReDoLacks(t: string)
    requires |t| >= 3 && '-' !in t
    ensures !Contains("re-do", t)
  {
    var s := "re-do";
    assert s[2] == '-';
    MissingCovered(s, t, 2);
  }

  /** A non-ASCII letter is removed like punctuation (`AccentStrip`):
      "abécd" does not hold "bcd", but its token "abcd" does, so "bcd" scores 0.8. */
  lemma AccentScore()
    ensures TokenScore("ab\U{00E9}cd", ["abcd"], "bcd") == 0.8
  {
    var s := "ab\U{00E9}cd";
    assert s[2] == '\U{00E9}' && '\U{00E9}' !in "bcd";
    MissingCovered(s, "bcd", 2);
    assert !IsPrefix("bcd", "abcd");
    assert IsPrefix("bcd", "abcd"[1..]);
    assert ["abcd"][1..] == [];
  }

  /** Tokenizing drops the accented letter of "abécd". */
  lemma AccentStrip()
    ensures Strip("ab\U{00E9}cd") == "abcd"
  {
    assert !IsWordChar('\U{00E9}') && !IsSpace('\U{00E9}');
    StripCons('d', "");
    StripCons('c', "d");
    StripCons('\U{00E9}', "cd");
    StripCons('b', "\U{00E9}cd");
    StripCons('a', "b\U{00E9}cd");
  }

  /** A query token found in the lower-cased product name scores 1.0. */
  lemma NameMatchScoresOne(p: Product, t: string)
    requires Contains(Lower(p.name), t)
    ensures TokenScore(ProductText(p), Tokenize(ProductText(p)), t) == 1.0
  {
    var text := ProductText(p);
    assert IsPrefix(Lower(p.name), text) by {
      assert text[..|Lower(p.name)|] == Lower(p.name);
    }
    ContainsPrefix(Lower(p.name), text);
    ContainsTransitive(text, Lower(p.name), t);
  }
}

=== FILE: search.dfy ===
/** `SearchEngine.searchProducts`: a blank query returns a plain catalog page;
    any other query is answered from the search cache when it can be, and
    otherwise by scoring a window of candidates, keeping the relevant ones,
    ordering them by score and caching that page. */
module Search {
  import opened Basics
  import opened Text
  import opened Tokenizer
  import opened StableSort
  import opened Catalog
  import opened Scorer

  /** A product with `relevanceScore` added. */
  datatype ScoredProduct = ScoredProduct(product: Product, relevanceScore: real)

  function RelevanceOf(s: ScoredProduct): (score: real) {
    s.relevanceScore
  }

  /** Scores above this are kept. */
  const Threshold: real := 0.5

  /** `allProducts.map(...)`: each candidate with its relevance to the query tokens. */
  function ScoreAll(window: seq<Product>, query: seq<string>): (r: seq<ScoredProduct>)
    ensures |r| == |window|
    ensures forall i :: 0 <= i < |r| ==> r[i].product == window[i] && r[i].relevanceScore == ProductScore(window[i], query)
  {
    if window == [] then []
    else [ScoredProduct(window[0], ProductScore(window[0], query))] + ScoreAll(window[1..], query)
  }

  /** `filter(product => product.relevanceScore > 0.5)`. */
  function Relevant(scored: seq<ScoredProduct>): (r: seq<ScoredProduct>)
    ensures |r| <= |scored|
    ensures forall x :: x in r <==> x in scored && x.relevanceScore > Threshold
  {
    if scored == [] then []
    else (if scored[0].relevanceScore > Threshold then [scored[0]] else []) + Relevant(scored[1..])
  }

  /** Nothing passes the filter when no score is above the threshold. */
  lemma {:induction false} RelevantEmpty(scored: seq<ScoredProduct>)
    requires forall i :: 0 <= i < |scored| ==> scored[i].relevanceScore <= Threshold
    ensures Relevant(scored) == []
    decreases |scored|
  {
    if scored != [] {
      RelevantEmpty(scored[1..]);
    }
  }

  /** Filtering by score keeps every score class above the threshold whole,
      in order, and empties the others. */
  lemma {:induction false} RelevantWithKey(scored: seq<ScoredProduct>, v: real)
    ensures WithKey(Relevant(scored), RelevanceOf, v) == if v > Threshold then WithKey(scored, RelevanceOf, v) else []
    decreases |scored|
  {
    if scored != [] {
      RelevantWithKey(scored[1..], v);
      var head := if scored[0].relevanceScore > Threshold then [scored[0]] else [];
      WithKeyCons(scored[0], scored[1..], RelevanceOf, v);
      assert scored == [scored[0]] + scored[1..];
      if head == [] {
        assert Relevant(scored) == Relevant(scored[1..]);
      } else {
        WithKeyCons(scored[0], Relevant(scored[1..]), RelevanceOf, v);
      }
    }
  }

  /** The relevant candidates, best first, ties in window order. */
  function Ranking(window: seq<Product>, query: seq<string>): (r: seq<ScoredProduct>)
    ensures SortedDesc(r, RelevanceOf)
    ensures multiset(r) == multiset(Relevant(ScoreAll(window, query)))
    ensures forall i :: 0 <= i < |r| ==> IsScoredCandidate(r[i], window, query)
  {
    var relevant := Relevant(ScoreAll(window, query));
    SortMembers(relevant, RelevanceOf);
    CandidatesScored(window, query);
    Sort(relevant, RelevanceOf)
  }

  /** `x` is a window product with its own score, above the threshold. */
  predicate IsScoredCandidate(x: ScoredProduct, window: seq<Product>, query: seq<string>) {
    && x.product in window
    && x.relevanceScore == ProductScore(x.product, query)
    && x.relevanceScore > Threshold
  }

  lemma CandidatesScored(window: seq<Product>, query: seq<string>)
    ensures forall x :: x in Relevant(ScoreAll(window, query)) ==> IsScoredCandidate(x, window, query)
  {
    var all := ScoreAll(window, query);
    forall x | x in Relevant(all)
      ensures IsScoredCandidate(x, window, query)
    {
      var j :| 0 <= j < |all| && all[j] == x;
    }
  }

  /** The ranking step of `searchProducts`: keep the relevant candidates, sort them by descending
      score and take the first `limit`. Every result is a window product
      carrying its own score, above 0.5, the scores never increase, and the
      page is as full as the relevant candidates allow. */
  function Rank(window: seq<Product>, query: seq<string>, limit: nat): (r: seq<ScoredProduct>)
    ensures |r| == Min(limit, |Relevant(ScoreAll(window, query))|)
    ensures forall i :: 0 <= i < |r| ==> IsScoredCandidate(r[i], window, query)
    ensures SortedDesc(r, RelevanceOf)
  {
    var ranked := Ranking(window, query);
    assert |ranked| == |multiset(ranked)|;
    ranked[..Min(limit, |ranked|)]
  }

  /** Equal scores keep window order: for every score, the results with that
      score are the first ones of the window's candidates with that score. */
  lemma RankStable(window: seq<Product>, query: seq<string>, limit: nat, v: real)
    requires v > Threshold
    ensures IsPrefix(WithKey(Rank(window, query, limit), RelevanceOf, v),
                     WithKey(ScoreAll(window, query), RelevanceOf, v))
  {
    var ranked := Ranking(window, query);
    WithKeyOfPrefix(ranked, Min(limit, |ranked|), RelevanceOf, v);
    RelevantWithKey(ScoreAll(window, query), v);
  }

  /** The results are the best candidates: a relevant candidate that is left
      out scores no higher than any result, and only a full page leaves
      relevant candidates out. */
  lemma RankTop(window: seq<Product>, query: seq<string>, limit: nat)
    ensures var r := Rank(window, query, limit);
      forall x :: x in ScoreAll(window, query) && x.relevanceScore > Threshold && x !in r ==>
        |r| == limit && forall i :: 0 <= i < limit ==> r[i].relevanceScore >= x.relevanceScore
  {
    var r := Rank(window, query, limit);
    forall x | x in ScoreAll(window, query) && x.relevanceScore > Threshold && x !in r
      ensures |r| == limit && forall i :: 0 <= i < limit ==> r[i].relevanceScore >= x.relevanceScore
    {
      LeftOut(window, query, limit, x);
    }
  }

  /** One relevant candidate left out of the results. */
  lemma LeftOut(window: seq<Product>, query: seq<string>, limit: nat, x: ScoredProduct)
    requires x in ScoreAll(window, query) && x.relevanceScore > Threshold
    requires x !in Rank(window, query, limit)
    ensures |Rank(window, query, limit)| == limit
    ensures forall i :: 0 <= i < limit ==> Rank(window, query, limit)[i].relevanceScore >= x.relevanceScore
  {
    var relevant := Relevant(ScoreAll(window, query));
    var ranked := Ranking(window, query);
    var n := Min(limit, |ranked|);
    assert x in relevant;
    assert x in multiset(relevant);
    assert x in ranked;
    assert Rank(window, query, limit) == ranked[..n];
    SortedPrefixDominates(ranked, n, x, RelevanceOf);
  }

  /** A query without tokens scores every product 0, so nothing is relevant. */
  lemma RankNoTokens(window: seq<Product>, limit: nat)
    ensures Rank(window, [], limit) == []
  {
    var all := ScoreAll(window, []);
    forall i | 0 <= i < |all|
      ensures all[i].relevanceScore <= Threshold
    {
      ProductScoreNoTokens(all[i].product);
    }
    RelevantEmpty(all);
  }

  lemma ProductScoreNoTokens(p: Product)
    ensures ProductScore(p, []) == 0.0
  {
  }

  /** What `searchProducts` resolves to: a plain catalog page for a blank
      query, or scored results. */
  datatype Response = Page(products: seq<Product>) | Ranked(results: seq<ScoredProduct>)

  /** The call either resolves or rejects because the cache store failed;
      the source does not catch cache errors. */
  datatype Outcome = Resolved(response: Response) | CacheUnavailable

  /** Whether the cache store answers reads and writes. */
  datatype CacheHealth = Healthy | ReadFails | WriteFails

  /** The search cache: results by key. */
  type Cache = map<string, seq<ScoredProduct>>

  /** `!query || query.trim() === ''`. */
  predicate IsBlank(query: string) {
    query == [] || Trim(query) == []
  }

  /** A query is blank exactly when it is made of whitespace only. */
  lemma BlankIffSpaces(query: string)
    ensures IsBlank(query) <==> forall i :: 0 <= i < |query| ==> IsSpace(query[i])
  {
  }

  /** `query.toLowerCase().trim()`: the query with whitespace cut from both
      ends, then lower-cased. */
  function NormalizeQuery(query: string): (r: string)
    ensures |r| <= |query|
    ensures forall i :: 0 <= i < |r| ==> !IsUpper(r[i])
    ensures r == Lower(Trim(query))
  {
    TrimLower(query);
    LowerChars(Trim(query));
    Trim(Lower(query))
  }

  /** Lower-casing keeps whitespace where it is, so a query that is not blank
      does not normalize to the empty string. */
  lemma NormalizeKeepsContent(query: string)
    requires !IsBlank(query)
    ensures NormalizeQuery(query) != []
  {
    var lower := Lower(query);
    LowerChars(query);
    var i :| 0 <= i < |query| && !IsSpace(query[i]);
    assert !IsSpace(lower[i]);
  }

  /** `${normalizedQuery}:${JSON.stringify(options)}`; the serialisation of
      the options is supplied by the caller. */
  function CacheKey(query: string, options: SearchOptions, json: SearchOptions -> string): (key: string)
    ensures |key| == |NormalizeQuery(query)| + 1 + |json(options)|
    ensures key[|NormalizeQuery(query)|] == ':' && IsPrefix(NormalizeQuery(query), key)
    ensures key[|NormalizeQuery(query)| + 1..] == json(options)
  {
    NormalizeQuery(query) + ":" + json(options)
  }

  /** The options of the candidate fetch: the limit becomes `limit * 3`, or 60
      when it is not set; offset and filters stay. */
  function WindowOptions(o: SearchOptions): (w: SearchOptions)
    ensures PageSize(w) == 3 * PageSize(o)
    ensures Offset(w) == Offset(o)
    ensures w.categoryId == o.categoryId && w.minPrice == o.minPrice && w.maxPrice == o.maxPrice
  {
    o.(limit := Some(if IsSetNat(o.limit) then o.limit.value * 3 else 60))
  }

  /** The results a cache miss computes from the query's tokens: fetch the
      window, rank it, and cut to `limit || 20`. The page is as full as the
      relevant candidates of the window allow. */
  function Fresh(catalog: seq<Product>, tokens: seq<string>, options: SearchOptions): (r: seq<ScoredProduct>)
    ensures |r| <= PageSize(options)
    ensures |r| == Min(PageSize(options), |Relevant(ScoreAll(GetProducts(catalog, WindowOptions(options)), tokens))|)
    ensures forall i :: 0 <= i < |r| ==>
      && r[i].product in catalog
      && Matches(r[i].product, options)
      && r[i].relevanceScore > Threshold
    ensures SortedDesc(r, RelevanceOf)
  {
    var window := GetProducts(catalog, WindowOptions(options));
    var r := Rank(window, tokens, PageSize(options));
    FromWindow(catalog, options, tokens, r);
    r
  }

  /** Ranked candidates of the window are catalog products that pass the filters. */
  lemma FromWindow(catalog: seq<Product>, options: SearchOptions, query: seq<string>, r: seq<ScoredProduct>)
    requires forall i :: 0 <= i < |r| ==> IsScoredCandidate(r[i], GetProducts(catalog, WindowOptions(options)), query)
    ensures forall i :: 0 <= i < |r| ==> r[i].product in catalog && Matches(r[i].product, options)
  {
    var window := GetProducts(catalog, WindowOptions(options));
    assert forall p :: p in window ==> p in catalog && Matches(p, WindowOptions(options));
  }

  /** `searchProducts(query, options)` against `catalog` and the search cache.
      A blank query returns the catalog page for `options` and leaves the
      cache alone. Otherwise a failing cache read rejects; a hit returns the
      cached results as they are, without fetching; a miss computes the
      results, and stores them under the key before returning them, or
      rejects, leaving the cache as it was, when the write fails. */
  method SearchProducts(catalog: seq<Product>, query: string, options: SearchOptions,
                        json: SearchOptions -> string, cache: Cache, health: CacheHealth)
    returns (outcome: Outcome, cache': Cache)
    ensures IsBlank(query) ==> outcome == Resolved(Page(GetProducts(catalog, options))) && cache' == cache
    ensures !IsBlank(query) && health == ReadFails ==> outcome == CacheUnavailable && cache' == cache
    ensures !IsBlank(query) && health != ReadFails && CacheKey(query, options, json) in cache ==>
      outcome == Resolved(Ranked(cache[CacheKey(query, options, json)])) && cache' == cache
    ensures !IsBlank(query) && health == WriteFails && CacheKey(query, options, json) !in cache ==>
      outcome == CacheUnavailable && cache' == cache
    ensures !IsBlank(query) && health == Healthy && CacheKey(query, options, json) !in cache ==>
      var results := Fresh(catalog, Tokenize(NormalizeQuery(query)), options);
      outcome == Resolved(Ranked(results)) && cache' == cache[CacheKey(query, options, json) := results]
  {
    if IsBlank(query) {
      return Resolved(Page(GetProducts(catalog, options))), cache;
    }
    var normalized := Trim(Lower(query));
    var key := normalized + ":" + json(options);
    if health == ReadFails {
      return CacheUnavailable, cache;
    }
    if key in cache {
      return Resolved(Ranked(cache[key])), cache;
    }
    var window := GetProducts(catalog, WindowOptions(options));
    var tokens := Tokenize(normalized);
    var results := Rank(window, tokens, PageSize(options));
    if health == WriteFails {
      return CacheUnavailable, cache;
    }
    return Resolved(Ranked(results)), cache[key := results];
  }

  /** Asking the same question twice: after a successful search, the second
      call is a cache hit and resolves to the same response. */
  method SearchTwice(catalog: seq<Product>, query: string, options: SearchOptions,
                     json: SearchOptions -> string, cache: Cache)
    returns (first: Outcome, second: Outcome, cache': Cache)
    ensures first.Resolved? && second == first
    ensures !IsBlank(query) ==> CacheKey(query, options, json) in cache'
  {
    var c1;
    first, c1 := SearchProducts(catalog, query, options, json, cache, Healthy);
    second, cache' := SearchProducts(catalog, query, options, json, c1, Healthy);
  }
}

=== FILE: stable_sort.dfy ===
/** Stable sorting into descending key order: what `Array.prototype.sort` does
    with a comparator `(x, y) => key(y) - key(x)` (stable since ECMAScript 2019),
    and what the catalog's `orderBy: { createdAt: 'desc' }` is taken to do. */
module StableSort {
  import opened Basics

  /** Keys never increase from left to right. */
  predicate SortedDesc<T>(s: seq<T>, key: T -> real) {
    forall i, j :: 0 <= i < j < |s| ==> key(s[i]) >= key(s[j])
  }

  /** The elements of `s` whose key is `k`, in their order in `s`. */
  function WithKey<T>(s: seq<T>, key: T -> real, k: real): (r: seq<T>)
    ensures |r| <= |s|
    ensures forall i :: 0 <= i < |r| ==> key(r[i]) == k && r[i] in s
  {
    if s == [] then [] else (if key(s[0]) == k then [s[0]] else []) + WithKey(s[1..], key, k)
  }

  lemma WithKeyCons<T>(x: T, s: seq<T>, key: T -> real, k: real)
    ensures WithKey([x] + s, key, k) == (if key(x) == k then [x] else []) + WithKey(s, key, k)
  {
    assert ([x] + s)[1..] == s;
  }

  /** `WithKey` is empty exactly when no element has the key. */
  lemma {:induction false} WithKeyEmpty<T>(s: seq<T>, key: T -> real, k: real)
    ensures WithKey(s, key, k) == [] <==> forall i :: 0 <= i < |s| ==> key(s[i]) != k
    decreases |s|
  {
    if s != [] {
      WithKeyEmpty(s[1..], key, k);
      assert forall i :: 1 <= i < |s| ==> s[i] == s[1..][i - 1];
    }
  }

  /** Inserts `x` in front of the first element whose key is not larger. */
  function Insert<T>(x: T, s: seq<T>, key: T -> real): (r: seq<T>)
    ensures |r| == |s| + 1
  {
    if s == [] || key(s[0]) <= key(x) then [x] + s
    else [s[0]] + Insert(x, s[1..], key)
  }

  /** The elements of `Insert(x, s)` are `x` and the elements of `s`. */
  lemma {:induction false} InsertElements<T>(x: T, s: seq<T>, key: T -> real)
    ensures multiset(Insert(x, s, key)) == multiset([x] + s)
    decreases |s|
  {
    if s != [] && key(s[0]) > key(x) {
      InsertElements(x, s[1..], key);
      assert s == [s[0]] + s[1..];
    }
  }

  /** Inserting into a sorted sequence keeps it sorted. */
  lemma {:induction false} InsertSorted<T>(x: T, s: seq<T>, key: T -> real)
    requires SortedDesc(s, key)
    ensures SortedDesc(Insert(x, s, key), key)
    decreases |s|
  {
    if s == [] || key(s[0]) <= key(x) {
      SortedCons(x, s, key);
    } else {
      var t := Insert(x, s[1..], key);
      InsertSorted(x, s[1..], key);
      InsertHead(x, s[1..], key);
      assert s[1..] != [] ==> s[1..][0] == s[1];
      SortedCons(s[0], t, key);
    }
  }

  /** The head of `Insert(x, s)` is `x` or the head of `s`. */
  lemma InsertHead<T>(x: T, s: seq<T>, key: T -> real)
    ensures Insert(x, s, key)[0] == x || (s != [] && Insert(x, s, key)[0] == s[0])
  {
  }

  /** Putting an element with a key no smaller than the head's in front of a
      sorted sequence keeps it sorted. */
  lemma SortedCons<T>(h: T, t: seq<T>, key: T -> real)
    requires SortedDesc(t, key) && (t != [] ==> key(h) >= key(t[0]))
    ensures SortedDesc([h] + t, key)
  {
    var r := [h] + t;
    forall i, j | 0 <= i < j < |r|
      ensures key(r[i]) >= key(r[j])
    {
      if i == 0 {
        assert r[j] == t[j - 1];
      } else {
        assert r[i] == t[i - 1] && r[j] == t[j - 1];
      }
    }
  }

  /** `x` lands in front of every element with its key, so each key class of
      the result is that of `[x] + s`. */
  lemma {:induction false} InsertStable<T>(x: T, s: seq<T>, key: T -> real, k: real)
    ensures WithKey(Insert(x, s, key), key, k) == WithKey([x] + s, key, k)
    decreases |s|
  {
    if s != [] && key(s[0]) > key(x) {
      var t := Insert(x, s[1..], key);
      var h0 := if key(s[0]) == k then [s[0]] else [];
      var hx := if key(x) == k then [x] else [];
      var rest := WithKey(s[1..], key, k);
      InsertStable(x, s[1..], key, k);
      assert s == [s[0]] + s[1..];
      assert Insert(x, s, key) == [s[0]] + t;
      WithKeyCons(s[0], t, key, k);
      WithKeyCons(x, s[1..], key, k);
      WithKeyCons(x, s, key, k);
      WithKeyCons(s[0], s[1..], key, k);
      SwapHeads(h0, hx, rest);
    }
  }

  /** Two heads of which one is empty can trade places. */
  lemma SwapHeads<T>(a: seq<T>, b: seq<T>, rest: seq<T>)
    requires a == [] || b == []
    ensures a + (b + rest) == b + (a + rest)
  {
    if a == [] {
      assert a + (b + rest) == b + rest == b + (a + rest);
    } else {
      assert a + (b + rest) == a + rest == b + (a + rest);
    }
  }

  /** `r` is `s` sorted by descending key with equal keys in their order in `s`. */
  ghost predicate IsStableSortOf<T>(r: seq<T>, s: seq<T>, key: T -> real) {
    SortedDesc(r, key) && forall k :: WithKey(r, key, k) == WithKey(s, key, k)
  }

  /** Insertion sort. The result is a permutation of `s`, sorted by descending
      key, and elements with equal keys keep their relative order. */
  function Sort<T>(s: seq<T>, key: T -> real): (r: seq<T>)
    ensures |r| == |s|
    ensures multiset(r) == multiset(s)
    ensures SortedDesc(r, key)
    ensures forall k :: WithKey(r, key, k) == WithKey(s, key, k)
  {
    if s == [] then []
    else
      var tail := Sort(s[1..], key);
      InsertSorted(s[0], tail, key);
      InsertElements(s[0], tail, key);
      assert s == [s[0]] + s[1..];
      forall k
        ensures WithKey(Insert(s[0], tail, key), key, k) == WithKey(s, key, k)
      {
        InsertStable(s[0], tail, key, k);
        WithKeyCons(s[0], tail, key, k);
        WithKeyCons(s[0], s[1..], key, k);
      }
      Insert(s[0], tail, key)
  }

  /** Two non-empty sorted sequences with the same key classes start with the
      same element, and their tails again have the same key classes. */
  lemma SortedHeads<T>(u: seq<T>, v: seq<T>, key: T -> real)
    requires u != [] && v != []
    requires SortedDesc(u, key) && SortedDesc(v, key)
    requires forall k :: WithKey(u, key, k) == WithKey(v, key, k)
    ensures u[0] == v[0]
    ensures forall k :: WithKey(u[1..], key, k) == WithKey(v[1..], key, k)
  {
    SameHead(u, v, key);
    assert u == [u[0]] + u[1..] && v == [v[0]] + v[1..];
    forall k
      ensures WithKey(u[1..], key, k) == WithKey(v[1..], key, k)
    {
      WithKeyCons(u[0], u[1..], key, k);
      WithKeyCons(v[0], v[1..], key, k);
      var n := if key(u[0]) == k then 1 else 0;
      assert WithKey(u[1..], key, k) == WithKey(u, key, k)[n..];
      assert WithKey(v[1..], key, k) == WithKey(v, key, k)[n..];
    }
  }

  lemma SameHead<T>(u: seq<T>, v: seq<T>, key: T -> real)
    requires u != [] && v != []
    requires SortedDesc(u, key) && SortedDesc(v, key)
    requires forall k :: WithKey(u, key, k) == WithKey(v, key, k)
    ensures u[0] == v[0]
  {
    HeadLeads(u, key);
    HeadLeads(v, key);
    HeadIsMax(v, key, WithKey(u, key, key(u[0]))[0]);
    HeadIsMax(u, key, WithKey(v, key, key(v[0]))[0]);
  }

  /** The head of a sequence leads the class of its own key. */
  lemma HeadLeads<T>(s: seq<T>, key: T -> real)
    requires s != []
    ensures WithKey(s, key, key(s[0])) != [] && WithKey(s, key, key(s[0]))[0] == s[0]
  {
    WithKeyCons(s[0], s[1..], key, key(s[0]));
    assert s == [s[0]] + s[1..];
  }

  /** In a sorted sequence no element has a larger key than the head. */
  lemma HeadIsMax<T>(s: seq<T>, key: T -> real, x: T)
    requires s != [] && SortedDesc(s, key) && x in s
    ensures key(x) <= key(s[0])
  {
    var i :| 0 <= i < |s| && s[i] == x;
  }

  /** A sorted sequence is determined by what it holds under each key: two
      sorted sequences that agree on every `WithKey` are equal. */
  lemma {:induction false} SortedUnique<T>(u: seq<T>, v: seq<T>, key: T -> real)
    requires SortedDesc(u, key) && SortedDesc(v, key)
    requires forall k :: WithKey(u, key, k) == WithKey(v, key, k)
    ensures u == v
    decreases |u|
  {
    if u == [] {
      if v != [] {
        WithKeyEmpty(u, key, key(v[0]));
        WithKeyEmpty(v, key, key(v[0]));
      }
    } else if v == [] {
      WithKeyEmpty(u, key, key(u[0]));
      WithKeyEmpty(v, key, key(u[0]));
    } else {
      SortedHeads(u, v, key);
      SortedUnique(u[1..], v[1..], key);
      assert u == [u[0]] + u[1..] && v == [v[0]] + v[1..];
    }
  }

  /** A stable sort of `s` is exactly `Sort(s)`. */
  lemma SortCharacterized<T>(s: seq<T>, r: seq<T>, key: T -> real)
    ensures IsStableSortOf(r, s, key) <==> r == Sort(s, key)
  {
    var q := Sort(s, key);
    if IsStableSortOf(r, s, key) {
      forall k
        ensures WithKey(r, key, k) == WithKey(q, key, k)
      {
      }
      SortedUnique(r, q, key);
    }
  }

  /** Putting the same elements in front of two sequences keeps one a prefix of the other. */
  lemma PrefixAppend<T>(p: seq<T>, a: seq<T>, b: seq<T>)
    requires IsPrefix(a, b)
    ensures IsPrefix(p + a, p + b)
  {
    assert (p + b)[..|p + a|] == p + b[..|a|];
  }

  /** Taking a prefix of a sequence takes a prefix of each of its key classes. */
  lemma {:induction false} WithKeyOfPrefix<T>(s: seq<T>, n: nat, key: T -> real, k: real)
    requires n <= |s|
    ensures IsPrefix(WithKey(s[..n], key, k), WithKey(s, key, k))
    decreases |s|
  {
    if n > 0 {
      var head := if key(s[0]) == k then [s[0]] else [];
      WithKeyOfPrefix(s[1..], n - 1, key, k);
      assert s == [s[0]] + s[1..];
      assert s[..n] == [s[0]] + s[1..][..n - 1];
      WithKeyCons(s[0], s[1..], key, k);
      WithKeyCons(s[0], s[1..][..n - 1], key, k);
      PrefixAppend(head, WithKey(s[1..][..n - 1], key, k), WithKey(s[1..], key, k));
    }
  }

  /** Every element of `Sort(s)` comes from `s`. */
  lemma SortMembers<T>(s: seq<T>, key: T -> real)
    ensures forall i :: 0 <= i < |Sort(s, key)| ==> Sort(s, key)[i] in s
  {
    var r := Sort(s, key);
    forall i | 0 <= i < |r|
      ensures r[i] in s
    {
      assert r[i] in multiset(s);
    }
  }

  /** In a sorted sequence, anything left out of the first `n` elements has a
      key no larger than any of those kept. */
  lemma SortedPrefixDominates<T>(s: seq<T>, n: nat, x: T, key: T -> real)
    requires SortedDesc(s, key) && n <= |s|
    requires x in s && x !in s[..n]
    ensures n < |s|
    ensures forall i :: 0 <= i < n ==> key(s[i]) >= key(x)
  {
    var m :| 0 <= m < |s| && s[m] == x;
    assert forall k :: 0 <= k < n ==> s[..n][k] == s[k];
    assert m >= n;
  }

  /** A slice of a sorted sequence is sorted and holds elements of the sequence. */
  lemma SliceSorted<T>(s: seq<T>, i: nat, j: nat, key: T -> real)
    requires SortedDesc(s, key) && i <= j <= |s|
    ensures SortedDesc(s[i..j], key)
    ensures forall x :: x in s[i..j] ==> x in s
  {
    var t := s[i..j];
    forall a, b | 0 <= a < b < |t|
      ensures key(t[a]) >= key(t[b])
    {
      assert t[a] == s[i + a] && t[b] == s[i + b];
    }
    forall x | x in t
      ensures x in s
    {
      var a :| 0 <= a < |t| && t[a] == x;
      assert s[i + a] == x;
    }
  }
}

=== FILE: text.dfy ===
/** Character classes and string helpers with the JavaScript semantics that the
    search engine relies on: the `\w` and `\s` regular-expression classes,
    `toLowerCase`, `trim`, `startsWith` and `includes`. */
module Text {
  import opened Basics

  /** `\s` in a JavaScript regular expression; `String.prototype.trim` removes
      exactly these characters from both ends of a string. */
  predicate IsSpace(c: char) {
    c == ' ' || ('\t' <= c <= '\r') || ('\U{00A0}' <= c && IsWideSpace(c))
  }

  /** The whitespace characters of `\s` outside ASCII. */
  predicate IsWideSpace(c: char) {
    || c == '\U{00A0}' || c == '\U{1680}' || ('\U{2000}' <= c <= '\U{200A}')
    || c == '\U{2028}' || c == '\U{2029}' || c == '\U{202F}' || c == '\U{205F}'
    || c == '\U{3000}' || c == '\U{FEFF}'
  }

  /** `\w` in a JavaScript regular expression without the `u` flag. */
  predicate IsWordChar(c: char) {
    'a' <= c <= 'z' || 'A' <= c <= 'Z' || '0' <= c <= '9' || c == '_'
  }

  predicate IsUpper(c: char) {
    'A' <= c <= 'Z'
  }

  /** `toLowerCase` restricted to ASCII: only `A`..`Z` change. */
  function LowerChar(c: char): (r: char)
    ensures !IsUpper(r)
    ensures !IsUpper(c) ==> r == c
    ensures IsUpper(c) ==> 'a' <= r <= 'z'
  {
    if IsUpper(c) then (c as int + 32) as char else c
  }

  function Lower(s: string): (r: string)
    ensures |r| == |s|
  {
    if s == [] then [] else [LowerChar(s[0])] + Lower(s[1..])
  }

  lemma {:induction false} LowerChars(s: string)
    ensures forall i :: 0 <= i < |s| ==> Lower(s)[i] == LowerChar(s[i])
    decreases |s|
  {
    if s != [] {
      LowerChars(s[1..]);
    }
  }

  lemma {:induction false} LowerAppend(s: string, t: string)
    ensures Lower(s + t) == Lower(s) + Lower(t)
    decreases |s|
  {
    if s != [] {
      LowerAppend(s[1..], t);
      assert (s + t)[1..] == s[1..] + t;
    } else {
      assert s + t == t;
    }
  }

  /** A string without upper-case letters is its own lower-case form. */
  lemma LowerOfLower(s: string)
    requires forall i :: 0 <= i < |s| ==> !IsUpper(s[i])
    ensures Lower(s) == s
  {
    LowerChars(s);
  }

  /** Lower-casing a slice is slicing the lower-cased string. */
  lemma LowerSlice(s: string, lo: nat, hi: nat)
    requires lo <= hi <= |s|
    ensures Lower(s)[lo..hi] == Lower(s[lo..hi])
  {
    LowerChars(s);
    LowerChars(s[lo..hi]);
  }

  /** Number of whitespace characters at the front of `s`. */
  function LeadingSpaces(s: string): (n: nat)
    ensures n <= |s|
    decreases |s|
  {
    if |s| > 0 && IsSpace(s[0]) then 1 + LeadingSpaces(s[1..]) else 0
  }

  /** The leading run is whitespace, and it stops at a non-space. */
  lemma {:induction false} LeadingRun(s: string)
    ensures forall i :: 0 <= i < LeadingSpaces(s) ==> IsSpace(s[i])
    ensures LeadingSpaces(s) < |s| ==> !IsSpace(s[LeadingSpaces(s)])
    decreases |s|
  {
    if |s| > 0 && IsSpace(s[0]) {
      LeadingRun(s[1..]);
      assert forall i :: 1 <= i < |s| ==> s[i] == s[1..][i - 1];
    }
  }

  /** Number of whitespace characters at the back of `s`. */
  function TrailingSpaces(s: string): (n: nat)
    ensures n <= |s|
    decreases |s|
  {
    if |s| > 0 && IsSpace(s[|s| - 1]) then 1 + TrailingSpaces(s[..|s| - 1]) else 0
  }

  /** The trailing run is whitespace, and it stops at a non-space. */
  lemma {:induction false} TrailingRun(s: string)
    ensures forall i :: |s| - TrailingSpaces(s) <= i < |s| ==> IsSpace(s[i])
    ensures TrailingSpaces(s) < |s| ==> !IsSpace(s[|s| - TrailingSpaces(s) - 1])
    decreases |s|
  {
    if |s| > 0 && IsSpace(s[|s| - 1]) {
      TrailingRun(s[..|s| - 1]);
      assert forall i :: 0 <= i < |s| - 1 ==> s[i] == s[..|s| - 1][i];
    }
  }

  /** `String.prototype.trim`: the result is the slice of `s` left after
      removing whitespace at both ends; it is empty exactly when `s` is all
      whitespace, and otherwise starts and ends with a non-space. */
  function Trim(s: string): (r: string)
    ensures var lo := LeadingSpaces(s);
      && lo + |r| <= |s| && r == s[lo..lo + |r|]
      && (forall i :: lo + |r| <= i < |s| ==> IsSpace(s[i]))
    ensures r == [] <==> forall i :: 0 <= i < |s| ==> IsSpace(s[i])
    ensures r != [] ==> !IsSpace(r[0]) && !IsSpace(r[|r| - 1])
  {
    var lo := LeadingSpaces(s);
    var rest := s[lo..];
    var n := TrailingSpaces(rest);
    LeadingRun(s);
    TrailingRun(rest);
    TrailingOfSuffix(s, lo, n);
    TrimSlice(s, lo, n);
    s[lo..|s| - n]
  }

  /** Lower-casing changes no whitespace character, so the leading run keeps
      its length. */
  lemma {:induction false} LeadingLower(s: string)
    ensures LeadingSpaces(Lower(s)) == LeadingSpaces(s)
    decreases |s|
  {
    if s != [] {
      LeadingLower(s[1..]);
    }
  }

  /** The same for the trailing run. */
  lemma {:induction false} TrailingLower(s: string)
    ensures TrailingSpaces(Lower(s)) == TrailingSpaces(s)
    decreases |s|
  {
    if s != [] {
      var front := s[..|s| - 1];
      TrailingLower(front);
      LowerAppend(front, [s[|s| - 1]]);
      assert front + [s[|s| - 1]] == s;
      assert Lower(s)[..|s| - 1] == Lower(front);
    }
  }

  /** `s.toLowerCase().trim()` equals `s.trim().toLowerCase()`: ASCII
      lower-casing and trimming commute. */
  lemma TrimLower(s: string)
    ensures Trim(Lower(s)) == Lower(Trim(s))
  {
    var lo := LeadingSpaces(s);
    LeadingLower(s);
    LowerSlice(s, lo, |s|);
    assert s[lo..|s|] == s[lo..];
    assert Lower(s)[lo..] == Lower(s[lo..]);
    TrailingLower(s[lo..]);
    var n := TrailingSpaces(s[lo..]);
    LowerSlice(s, lo, |s| - n);
    assert Trim(Lower(s)) == Lower(s)[lo..|s| - n];
    assert Trim(s) == s[lo..|s| - n];
  }

  /** Trailing whitespace of a suffix of `s` is trailing whitespace of `s`. */
  lemma TrailingOfSuffix(s: string, lo: nat, n: nat)
    requires lo <= |s| && n <= |s| - lo
    requires forall k :: |s| - lo - n <= k < |s| - lo ==> IsSpace(s[lo..][k])
    requires n < |s| - lo ==> !IsSpace(s[lo..][|s| - lo - n - 1])
    ensures forall i :: |s| - n <= i < |s| ==> IsSpace(s[i])
    ensures n < |s| - lo ==> !IsSpace(s[|s| - n - 1])
  {
    forall i | |s| - n <= i < |s|
      ensures IsSpace(s[i])
    {
      assert s[lo..][i - lo] == s[i];
    }
    if n < |s| - lo {
      assert s[lo..][|s| - lo - n - 1] == s[|s| - n - 1];
    }
  }

  /** Cutting `lo` leading and `n` trailing whitespace characters, with a
      non-space just inside each cut, leaves a slice that is empty exactly
      when `s` is all whitespace and otherwise has non-space ends. */
  lemma TrimSlice(s: string, lo: nat, n: nat)
    requires lo <= |s| && n <= |s| - lo
    requires forall i :: 0 <= i < lo ==> IsSpace(s[i])
    requires lo < |s| ==> !IsSpace(s[lo])
    requires forall i :: |s| - n <= i < |s| ==> IsSpace(s[i])
    requires n < |s| - lo ==> !IsSpace(s[|s| - n - 1])
    ensures var r := s[lo..|s| - n];
      && lo + |r| <= |s| && r == s[lo..lo + |r|]
      && (forall i :: lo + |r| <= i < |s| ==> IsSpace(s[i]))
    ensures var r := s[lo..|s| - n];
      r == [] <==> forall i :: 0 <= i < |s| ==> IsSpace(s[i])
    ensures var r := s[lo..|s| - n];
      r != [] ==> !IsSpace(r[0]) && !IsSpace(r[|r| - 1])
  {
    var r := s[lo..|s| - n];
    if r != [] {
      assert r[0] == s[lo] && r[|r| - 1] == s[|s| - n - 1];
    } else {
      assert lo + n == |s|;
    }
  }

  /** `t` occurs in `s` at position `i`. */
  predicate OccursAt(s: string, t: string, i: int) {
    0 <= i && i + |t| <= |s| && s[i..i + |t|] == t
  }

  /** `s.includes(t)`: the empty string occurs in every string. */
  predicate Contains(s: string, t: string)
    decreases |s|
  {
    IsPrefix(t, s) || (|s| > 0 && Contains(s[1..], t))
  }

  /** `Contains` is the usual "occurs at some position" relation. */
  lemma {:induction false} ContainsIffOccurs(s: string, t: string)
    ensures Contains(s, t) <==> exists i :: OccursAt(s, t, i)
    decreases |s|
  {
    if IsPrefix(t, s) {
      assert OccursAt(s, t, 0);
    } else {
      if |s| > 0 {
        ContainsIffOccurs(s[1..], t);
      }
      if |s| > 0 && Contains(s[1..], t) {
        var i :| OccursAt(s[1..], t, i);
        assert s[1..][i..i + |t|] == s[i + 1..i + 1 + |t|];
        assert OccursAt(s, t, i + 1);
      } else {
        forall i
          ensures !OccursAt(s, t, i)
        {
          if i == 0 && |t| <= |s| {
            assert s[0..|t|] == s[..|t|];
          } else if 0 < i && i + |t| <= |s| {
            assert !OccursAt(s[1..], t, i - 1);
            assert s[1..][i - 1..i - 1 + |t|] == s[i..i + |t|];
          }
        }
      }
    }
  }

  lemma ContainsOccurrence(s: string, t: string, i: int)
    requires OccursAt(s, t, i)
    ensures Contains(s, t)
  {
    ContainsIffOccurs(s, t);
  }

  /** Containment is transitive. */
  lemma ContainsTransitive(a: string, b: string, c: string)
    requires Contains(a, b) && Contains(b, c)
    ensures Contains(a, c)
  {
    ContainsIffOccurs(a, b);
    ContainsIffOccurs(b, c);
    var i :| OccursAt(a, b, i);
    var j :| OccursAt(b, c, j);
    var w := a[i + j..i + j + |c|];
    forall k | 0 <= k < |c|
      ensures w[k] == c[k]
    {
      assert c[k] == b[j..j + |c|][k] == b[j + k];
      assert b[j + k] == a[i..i + |b|][j + k] == a[i + j + k];
    }
    assert w == c;
    ContainsOccurrence(a, c, i + j);
  }

  /** A string contains each of its prefixes. */
  lemma ContainsPrefix(p: string, s: string)
    requires IsPrefix(p, s)
    ensures Contains(s, p)
  {
  }

  /** When every stretch of `|t|` characters of `s` covers position `k`, and
      `t` lacks the character there, `t` does not occur in `s`. */
  lemma MissingCovered(s: string, t: string, k: nat)
    requires |s| - |t| <= k < |t| && k < |s| && s[k] !in t
    ensures !Contains(s, t)
  {
    ContainsIffOccurs(s, t);
    forall i
      ensures !OccursAt(s, t, i)
    {
      if 0 <= i && i + |t| <= |s| {
        assert s[i..i + |t|][k - i] == s[k] && t[k - i] != s[k];
      }
    }
  }
}

=== FILE: tokenizer.dfy ===
/** `SearchEngine.generateTokens`: lower-case the text, drop every character
    that is neither `\w` nor whitespace, split at whitespace and keep only the
    pieces longer than two characters. */
module Tokenizer {
  import opened Basics
  import opened Text

  /** The characters a token is made of: what `\w` leaves after lower-casing. */
  predicate IsTokenChar(c: char) {
    'a' <= c <= 'z' || '0' <= c <= '9' || c == '_'
  }

  predicate IsToken(t: string) {
    |t| > 2 && forall i :: 0 <= i < |t| ==> IsTokenChar(t[i])
  }

  /** `replace(/[^\w\s]/g, '')`: the characters of `s` that are word characters
      or whitespace, in order. */
  function Strip(s: string): (r: string)
    ensures |r| <= |s|
  {
    if s == [] then []
    else (if IsWordChar(s[0]) || IsSpace(s[0]) then [s[0]] else []) + Strip(s[1..])
  }

  /** Stripping keeps only word characters and whitespace taken from `s`, and
      leaves a string made of nothing else unchanged. */
  lemma {:induction false} StripKeeps(s: string)
    ensures forall i :: 0 <= i < |Strip(s)| ==> (IsWordChar(Strip(s)[i]) || IsSpace(Strip(s)[i])) && Strip(s)[i] in s
    ensures (forall i :: 0 <= i < |s| ==> IsWordChar(s[i]) || IsSpace(s[i])) ==> Strip(s) == s
    decreases |s|
  {
    if s != [] {
      StripKeeps(s[1..]);
      assert [s[0]] + s[1..] == s;
    }
  }

  lemma StripCons(c: char, s: string)
    ensures Strip([c] + s) == (if IsWordChar(c) || IsSpace(c) then [c] else []) + Strip(s)
  {
    assert ([c] + s)[1..] == s;
  }

  /** `replace` works character by character: stripping a concatenation
      strips each part. With `StripCons` this pins `Strip` down: every word
      character and whitespace character is kept, in order. */
  lemma {:induction false} StripAppend(a: string, b: string)
    ensures Strip(a + b) == Strip(a) + Strip(b)
    decreases |a|
  {
    if a == [] {
      assert a + b == b;
    } else {
      StripAppend(a[1..], b);
      assert a + b == [a[0]] + (a[1..] + b);
      assert a == [a[0]] + a[1..];
      StripCons(a[0], a[1..] + b);
      StripCons(a[0], a[1..]);
    }
  }

  /** `split(/\s+/)`, cutting at every whitespace character. Where the source
      cuts at a run of whitespace this yields extra empty pieces, which the
      length filter of `Tokenize` removes in both cases. */
  function Split(s: string): (pieces: seq<string>)
    ensures |pieces| >= 1
  {
    if s == [] then [[]]
    else
      var rest := Split(s[1..]);
      if IsSpace(s[0]) then [[]] + rest
      else [[s[0]] + rest[0]] + rest[1..]
  }

  /** Every piece is free of whitespace and occurs in `s`; the first one starts `s`. */
  lemma {:induction false} SplitPieces(s: string)
    ensures forall k, i :: 0 <= k < |Split(s)| && 0 <= i < |Split(s)[k]| ==>
      !IsSpace(Split(s)[k][i]) && Split(s)[k][i] in s
    ensures IsPrefix(Split(s)[0], s)
    ensures forall k :: 0 <= k < |Split(s)| ==> Contains(s, Split(s)[k])
    decreases |s|
  {
    if s != [] {
      SplitPieces(s[1..]);
      var rest := Split(s[1..]);
      var pieces := Split(s);
      if !IsSpace(s[0]) {
        assert pieces[0] == [s[0]] + rest[0];
        assert s == [s[0]] + s[1..];
        forall k | 1 <= k < |pieces|
          ensures Contains(s, pieces[k])
        {
          assert pieces[k] == rest[k];
        }
      } else {
        forall k | 1 <= k < |pieces|
          ensures Contains(s, pieces[k])
        {
          assert pieces[k] == rest[k - 1];
        }
      }
    }
  }

  /** The whitespace characters of `s`, in order: the places `Split` cuts at. */
  function Separators(s: string): (seps: string)
    ensures |seps| <= |s|
  {
    if s == [] then []
    else (if IsSpace(s[0]) then [s[0]] else []) + Separators(s[1..])
  }

  /** The pieces written out with the separators between neighbours. */
  function Rejoin(pieces: seq<string>, seps: string): (s: string)
    requires |pieces| == |seps| + 1
    decreases |seps|
  {
    if seps == [] then pieces[0]
    else pieces[0] + [seps[0]] + Rejoin(pieces[1..], seps[1..])
  }

  /** Splitting loses nothing: there is one piece more than there are
      whitespace characters, and putting the pieces back together with those
      characters between them gives `s` again. With `SplitPieces` (no piece
      holds whitespace) this fixes every piece. */
  lemma {:induction false} SplitRejoin(s: string)
    ensures |Split(s)| == |Separators(s)| + 1
    ensures Rejoin(Split(s), Separators(s)) == s
    decreases |s|
  {
    if s != [] {
      SplitRejoin(s[1..]);
      var rest, seps := Split(s[1..]), Separators(s[1..]);
      if IsSpace(s[0]) {
        assert ([[]] + rest)[1..] == rest;
        assert ([s[0]] + seps)[1..] == seps;
        assert [] + [s[0]] + s[1..] == s;
      } else {
        assert Separators(s) == seps;
        RejoinFront([s[0]], rest, seps);
        assert [s[0]] + s[1..] == s;
      }
    }
  }

  /** Gluing `x` to the front of the first piece glues it to the front of the result. */
  lemma RejoinFront(x: string, pieces: seq<string>, seps: string)
    requires |pieces| == |seps| + 1
    ensures Rejoin([x + pieces[0]] + pieces[1..], seps) == x + Rejoin(pieces, seps)
  {
    var glued := [x + pieces[0]] + pieces[1..];
    if seps != [] {
      assert glued[1..] == pieces[1..];
      assert x + pieces[0] + [seps[0]] + Rejoin(pieces[1..], seps[1..])
          == x + (pieces[0] + [seps[0]] + Rejoin(pieces[1..], seps[1..]));
    }
  }

  /** `filter(token => token.length > 2)`. */
  function KeepLong(pieces: seq<string>): (r: seq<string>)
    ensures |r| <= |pieces|
  {
    if pieces == [] then []
    else (if |pieces[0]| > 2 then [pieces[0]] else []) + KeepLong(pieces[1..])
  }

  /** The kept pieces are exactly the pieces longer than two characters. */
  lemma {:induction false} KeepLongMembers(pieces: seq<string>)
    ensures forall k :: 0 <= k < |KeepLong(pieces)| ==> |KeepLong(pieces)[k]| > 2 && KeepLong(pieces)[k] in pieces
    ensures forall k :: 0 <= k < |pieces| && |pieces[k]| > 2 ==> pieces[k] in KeepLong(pieces)
    decreases |pieces|
  {
    if pieces != [] {
      KeepLongMembers(pieces[1..]);
      assert forall k :: 1 <= k < |pieces| ==> pieces[k] == pieces[1..][k - 1];
    }
  }

  /** `filter` keeps order and repetitions: filtering a concatenation filters
      each part. With `KeepLongCons` this pins `KeepLong` down. */
  lemma {:induction false} KeepLongAppend(p: seq<string>, q: seq<string>)
    ensures KeepLong(p + q) == KeepLong(p) + KeepLong(q)
    decreases |p|
  {
    if p == [] {
      assert p + q == q;
    } else {
      KeepLongAppend(p[1..], q);
      assert p + q == [p[0]] + (p[1..] + q);
      assert p == [p[0]] + p[1..];
      KeepLongCons(p[0], p[1..] + q);
      KeepLongCons(p[0], p[1..]);
    }
  }

  /** The first piece is kept exactly when it is longer than two characters. */
  lemma KeepLongCons(x: string, rest: seq<string>)
    ensures KeepLong([x] + rest) == (if |x| > 2 then [x] else []) + KeepLong(rest)
  {
    assert ([x] + rest)[1..] == rest;
  }

  /** `generateTokens`: the empty text has no tokens, and every token is longer
      than two characters and made of lower-case ASCII letters, digits and `_`. */
  function Tokenize(text: string): (tokens: seq<string>)
    ensures text == [] ==> tokens == []
    ensures forall k :: 0 <= k < |tokens| ==> IsToken(tokens[k])
  {
    if text == [] then []
    else
      var tokens := KeepLong(Split(Strip(Lower(text))));
      TokenChars(text, tokens);
      tokens
  }

  lemma TokenChars(text: string, tokens: seq<string>)
    requires tokens == KeepLong(Split(Strip(Lower(text))))
    ensures forall k :: 0 <= k < |tokens| ==> IsToken(tokens[k])
  {
    var stripped := Strip(Lower(text));
    var pieces := Split(stripped);
    LowerChars(text);
    StripKeeps(Lower(text));
    SplitPieces(stripped);
    KeepLongMembers(pieces);
    forall k | 0 <= k < |tokens|
      ensures IsToken(tokens[k])
    {
      var t := tokens[k];
      assert t in pieces;
      forall i | 0 <= i < |t|
        ensures IsTokenChar(t[i])
      {
        var c := t[i];
        assert c in stripped;
        var m :| 0 <= m < |stripped| && stripped[m] == c;
        var n :| 0 <= n < |Lower(text)| && Lower(text)[n] == c;
      }
    }
  }

  /** Every token occurs in the lower-cased text with punctuation removed. */
  lemma TokensOccur(text: string)
    ensures forall k :: 0 <= k < |Tokenize(text)| ==> Contains(Strip(Lower(text)), Tokenize(text)[k])
  {
    SplitPieces(Strip(Lower(text)));
    KeepLongMembers(Split(Strip(Lower(text))));
  }

  /** The tokens written out with one space between neighbours. */
  function Join(tokens: seq<string>): (text: string)
  {
    if |tokens| == 0 then []
    else if |tokens| == 1 then tokens[0]
    else tokens[0] + " " + Join(tokens[1..])
  }

  lemma {:induction false} JoinChars(tokens: seq<string>)
    requires forall k :: 0 <= k < |tokens| ==> IsToken(tokens[k])
    ensures forall i :: 0 <= i < |Join(tokens)| ==> IsTokenChar(Join(tokens)[i]) || Join(tokens)[i] == ' '
    ensures |tokens| > 0 ==> |Join(tokens)| > 0
  {
    if |tokens| > 1 {
      JoinChars(tokens[1..]);
      var j := Join(tokens);
      forall i | 0 <= i < |j|
        ensures IsTokenChar(j[i]) || j[i] == ' '
      {
        if i < |tokens[0]| {
          assert j[i] == tokens[0][i];
        } else if i > |tokens[0]| {
          assert j[i] == Join(tokens[1..])[i - |tokens[0]| - 1];
        }
      }
    }
  }

  lemma {:induction false} SplitWord(w: string)
    requires forall i :: 0 <= i < |w| ==> !IsSpace(w[i])
    ensures Split(w) == [w]
    decreases |w|
  {
    if w != [] {
      SplitWord(w[1..]);
      assert [w[0]] + w[1..] == w;
    }
  }

  lemma {:induction false} SplitAfterWord(w: string, rest: string)
    requires forall i :: 0 <= i < |w| ==> !IsSpace(w[i])
    ensures Split(w + " " + rest) == [w] + Split(rest)
    decreases |w|
  {
    var s := w + " " + rest;
    if w == [] {
      assert s[1..] == rest;
    } else {
      assert s[1..] == w[1..] + " " + rest;
      SplitAfterWord(w[1..], rest);
      assert [s[0]] + w[1..] == w;
    }
  }

  lemma {:induction false} SplitJoin(tokens: seq<string>)
    requires |tokens| > 0
    requires forall k, i :: 0 <= k < |tokens| && 0 <= i < |tokens[k]| ==> !IsSpace(tokens[k][i])
    ensures Split(Join(tokens)) == tokens
    decreases |tokens|
  {
    if |tokens| == 1 {
      SplitWord(tokens[0]);
    } else {
      SplitAfterWord(tokens[0], Join(tokens[1..]));
      SplitJoin(tokens[1..]);
    }
  }

  lemma {:induction false} KeepLongKeepsTokens(tokens: seq<string>)
    requires forall k :: 0 <= k < |tokens| ==> |tokens[k]| > 2
    ensures KeepLong(tokens) == tokens
    decreases |tokens|
  {
    if tokens != [] {
      KeepLongKeepsTokens(tokens[1..]);
    }
  }

  /** Round trip: tokenizing space-joined tokens gives the same tokens back. */
  lemma TokenizeJoin(tokens: seq<string>)
    requires forall k :: 0 <= k < |tokens| ==> IsToken(tokens[k])
    ensures Tokenize(Join(tokens)) == tokens
  {
    if tokens != [] {
      var j := Join(tokens);
      NormalizeJoin(tokens);
      TokenizeNormalized(j);
      TokensHaveNoSpace(tokens);
      SplitJoin(tokens);
      KeepLongKeepsTokens(tokens);
    }
  }

  lemma TokensHaveNoSpace(tokens: seq<string>)
    requires forall k :: 0 <= k < |tokens| ==> IsToken(tokens[k])
    ensures forall k, i :: 0 <= k < |tokens| && 0 <= i < |tokens[k]| ==> !IsSpace(tokens[k][i])
  {
    forall k, i | 0 <= k < |tokens| && 0 <= i < |tokens[k]|
      ensures !IsSpace(tokens[k][i])
    {
      assert IsTokenChar(tokens[k][i]);
    }
  }

  /** On text that is already lower-case and stripped, tokenizing only splits and filters. */
  lemma TokenizeNormalized(text: string)
    requires text != [] && Strip(Lower(text)) == text
    ensures Tokenize(text) == KeepLong(Split(text))
  {
  }

  /** Joined tokens are already lower-case and free of punctuation. */
  lemma NormalizeJoin(tokens: seq<string>)
    requires forall k :: 0 <= k < |tokens| ==> IsToken(tokens[k])
    ensures Join(tokens) != [] <==> tokens != []
    ensures Strip(Lower(Join(tokens))) == Join(tokens)
  {
    var j := Join(tokens);
    JoinChars(tokens);
    LowerOfLower(j);
    StripKeeps(j);
  }

  /** Tokenizing is idempotent on its own space-joined output. */
  lemma TokenizeIdempotent(text: string)
    ensures Tokenize(Join(Tokenize(text))) == Tokenize(text)
  {
    TokenizeJoin(Tokenize(text));
  }

  /** Upper case is lowered and punctuation removed, joining the pieces of
      a word; words of two characters or fewer are dropped. */
  lemma TokenizeExamples()
    ensures Tokenize("Cat's") == ["cats"]
    ensures Tokenize("aa bbb") == ["bbb"]
  {
    Cats();
    ShortWord();
  }

  lemma Cats()
    ensures Tokenize("Cat's") == ["cats"]
  {
    CatsLower();
    CatsStrip();
    CatsSplit();
    assert KeepLong(["cats"]) == ["cats"];
  }

  lemma CatsLower()
    ensures Lower("Cat's") == "cat's"
  {
    assert Lower("s") == "s";
    assert Lower("'s") == "'s";
    assert Lower("t's") == "t's";
    assert Lower("at's") == "at's";
  }

  lemma CatsStrip()
    ensures Strip("cat's") == "cats"
  {
    StripCons('c', "at's");
    StripCons('a', "t's");
    StripCons('t', "'s");
    StripCons('\'', "s");
    StripCons('s', "");
  }

  lemma CatsSplit()
    ensures Split("cats") == ["cats"]
  {
    SplitWord("cats");
  }

  lemma ShortWord()
    ensures Tokenize("aa bbb") == ["bbb"]
  {
    ShortWordLower();
    ShortWordStrip();
    ShortWordSplit();
    assert KeepLong(["aa", "bbb"]) == ["bbb"];
  }

  lemma ShortWordLower()
    ensures Lower("aa bbb") == "aa bbb"
  {
    assert Lower("b") == "b";
    assert Lower("bb") == "bb";
    assert Lower("bbb") == "bbb";
    assert Lower(" bbb") == " bbb";
    assert Lower("a bbb") == "a bbb";
  }

  lemma ShortWordStrip()
    ensures Strip("aa bbb") == "aa bbb"
  {
    StripCons('a', "a bbb");
    StripCons('a', " bbb");
    StripCons(' ', "bbb");
    StripCons('b', "bb");
    StripCons('b', "b");
    StripCons('b', "");
  }

  lemma ShortWordSplit()
    ensures Split("aa bbb") == ["aa", "bbb"]
  {
    SplitAfterWord("aa", "bbb");
    SplitWord("bbb");
    assert "aa" + " " + "bbb" == "aa bbb";
  }
}
